=== FILE: README.md ===
# Comment-Analyzer in Dafny

A model of the sequential core of the YouTube comment sentiment analyzer, with proofs
about it. The analyzer has a Flask backend and a React client.

- **Backend.** It takes a YouTube URL, extracts the video id and fetches up to ten
  top-level comments through the YouTube Data API. It cleans each comment (translation,
  lower-casing, URL/mention/emoji handling, contraction expansion, character-run
  reduction, promotional-content removal). It then predicts a sentiment label 0
  (negative), 1 (neutral) or 2 (positive) with a probability array, and answers with one
  row per comment.
- **Client.** It posts the URL, keeps a small state record (URL, loading flag, error,
  results, instructions flag), and picks the panel to show. It displays per-label counts
  with rounded percentages on four summary cards, plus a list of comment cards filtered
  by the selected tab.

Modules (one per file, all under this directory):

| module | file | models |
|---|---|---|
| `PyText` | pytext.dfy | Python's `str.isspace`, `str.split()`, `" ".join`, `str.strip()` |
| `Contractions` | contractions.dfy | the contraction/slang table, `expand_contractions`, `handle_case_specific_words` |
| `Repeats` | repeats.dfy | `reduce_repeated_characters` |
| `Promotion` | promotion.dfy | `remove_promotional_content` |
| `Preprocess` | preprocess.dfy | `clean_text`, `detect_language`, `preprocess_comment` |
| `Wire` | wire.dfy | `Option` and the result row sent to the client |
| `Pipeline` | pipeline.dfy | `process_comments` |
| `YouTube` | youtube.dfy | `extract_video_id`, `fetch_comments`, the `/fetch-comments` route |
| `ResultsView` | results_view.dfy | `ResultsDisplay`, `SentimentCard`, `CommentCard` |
| `Analyzer` | analyzer.dfy | `CommentAnalyzer`: `handleSubmit` and the panel choice |

Foreign code enters as function parameters about which nothing is assumed:
- `emoji.demojize`, `langdetect.detect` and the translator.
- The sentiment model's `predict`.
- The YouTube API request.
- The outcome of the client's POST.

Some behaviours of the code are easy to misread; the model follows the code:
- **Empty result list.** Percentages are still computed when there are no results. The
  division by zero is evaluated, and the three label cards show `NaN%`
  (`ResultsView.EmptyResultsShowNaN`).
- **Failed request.** A failed request keeps the previous results on screen, below the
  error. No separate "failed" state replaces them (`Analyzer.FailureKeepsResults`).
- **Labels outside 0..2.** Such a row is counted in the Total card but under none of the three label cards. The comment card finds no
  entry for it: the label lookup yields `undefined`, reading its colour throws a
  `TypeError` during rendering, and with no error boundary React unmounts the whole tree,
  so the page goes blank (`ResultsView.LabelName`).
- **Unusable URL.** It is answered with HTTP 500, not 400.
  `fetch_comments` rewraps the `ValueError` as a plain `Exception`, so the route's
  `except ValueError` branch is unreachable for errors leaving `fetch_comments`
  (`YouTube.InvalidUrlIsServerError`).
- **Tab reset.** The tab filter resets to "all" on each submit that posts a request; a submit with a blank URL keeps the current tab. In the code this happens
  because the results component is unmounted while the spinner shows.

## Model

| member | source | states |
|---|---|---|
| PyText.SplitWords | backend/utils/preprocess.py:76 | every token of `str.split()` is non-empty and free of whitespace |
| PyText.LStripIsSuffix | backend/utils/preprocess.py:67 | `lstrip` removes a prefix, and that prefix is all whitespace |
| PyText.SplitJoin | backend/utils/preprocess.py:76-78 | splitting the single-spaced join of a word list gives the list back |
| PyText.JoinSingleSpaced | backend/utils/preprocess.py:78 | joining words gives text with no whitespace but lone `' '` between words, none at the ends |
| PyText.SplitTrailingSpace | backend/utils/preprocess.py:67 | whitespace appended to a text adds no token to `str.split()` |
| PyText.SplitStrip | backend/utils/preprocess.py:67 | `str.split()` ignores what `str.strip()` removes |
| PyText.SplitCons | backend/utils/preprocess.py:67 | a non-space character put in front either extends the first token or becomes a token of its own |
| PyText.JoinSplitSingleSpaced | backend/utils/preprocess.py:67 | a single-spaced text equals `" ".join` of its own tokens |
| PyText.JoinOfJoins | backend/utils/preprocess.py:77-78 | joining the joined expansions equals joining the flattened word list |
| Contractions.TableValuesAreFinal | backend/utils/preprocess.py:14-40 | every table value is a non-empty list of words, none of which is itself a key |
| Contractions.ExpandTokens | backend/utils/preprocess.py:77 | each token is replaced, in place, by its table entry when it is a key and kept otherwise |
| Contractions.ExpandedWordsFinal | backend/utils/preprocess.py:14-40 | expanded tokens are words, none is a key, and there are at least as many as before |
| Contractions.ExpandContractions | backend/utils/preprocess.py:76-78 | the result splits into exactly the expanded word sequence, is single-spaced, and has no fewer words than the input |
| Contractions.HandleCaseSpecificWords | backend/utils/preprocess.py:115-117 | returns what `expand_contractions` returns on every input |
| Contractions.ExpandTokensOfNoKeys | backend/utils/preprocess.py:77 | tokens none of which is a key are left alone |
| Contractions.ExpandContractionsIdempotent | backend/utils/preprocess.py:76-78 | expanding twice is expanding once |
| Contractions.CaseSensitiveExample | backend/utils/preprocess.py:77 | the lookup is case-sensitive: "Don't u" becomes "Don't you" |
| Repeats.RunLength | backend/utils/preprocess.py:84 | the length of the maximal run of the first character |
| Repeats.ReduceRepeatedCharacters | backend/utils/preprocess.py:84 | the output is never longer, keeps the first character and has no three equal non-newline characters in a row |
| Repeats.NoTripleCons | backend/utils/preprocess.py:84 | prefixing a character creates a triple only when the text starts with two copies of it |
| Repeats.ReduceIsCollapseRuns | backend/utils/preprocess.py:84 | the regex scan equals the run reading: runs of three or more non-newline characters shrink to one, all else is kept |
| Repeats.ReduceKeepsNoTriple | backend/utils/preprocess.py:84 | a text with no such run is returned unchanged |
| Repeats.ReduceIdempotent | backend/utils/preprocess.py:84 | reducing twice is reducing once |
| Promotion.AsciiLower | backend/utils/preprocess.py:108 | the case folding `re.IGNORECASE` applies to ASCII letters |
| Promotion.TimestampAt | backend/utils/preprocess.py:99 | the match at a position has length 5 exactly when two digits, a colon and two digits stand there between word boundaries, and length 4 exactly when one digit, a colon and two digits do (the longer form is tried first) |
| Promotion.TimestampExample | backend/utils/preprocess.py:99 | `1:05` is a timestamp of length 4 and is removed entirely |
| Promotion.RemoveTimestampsFrom | backend/utils/preprocess.py:99 | the scan only deletes, leaves a text without timestamps alone and shortens one with a timestamp |
| Promotion.RemoveTimestampsDropsMatch | backend/utils/preprocess.py:99 | a timestamp starting at the scan position is deleted whole and the scan resumes after it |
| Promotion.RemoveTimestampsCopiesChar | backend/utils/preprocess.py:99 | a character at which no timestamp starts is kept and the scan moves on by one; with the previous row this fixes the scan on every input |
| Promotion.RemoveTimestamps | backend/utils/preprocess.py:99 | timestamp removal only deletes, and changes the text exactly when it holds a timestamp |
| Promotion.RemovePhrase | backend/utils/preprocess.py:108 | case-insensitive phrase removal only deletes, and changes the text exactly when the phrase occurs |
| Promotion.RemovePhraseDropsMatch | backend/utils/preprocess.py:108 | an occurrence of the phrase at the front, in any ASCII case, is deleted and the scan resumes after it |
| Promotion.RemovePhraseCopiesChar | backend/utils/preprocess.py:108 | a first character at which the phrase does not start is kept and the scan moves on by one; with the previous row this fixes the leftmost, non-overlapping removal on every input |
| Promotion.RemovePhrases | backend/utils/preprocess.py:101-108 | removing the phrases one after another only deletes, and shortens the text when one of them occurs |
| Promotion.RemovePromotionalContent | backend/utils/preprocess.py:94-109 | the result only loses characters, and equals the input exactly when it holds no timestamp and none of the four phrases |
| Preprocess.SubMultisetKeepsAlphabet | backend/utils/preprocess.py:69 | deleting characters keeps a letters-and-spaces text letters-and-spaces |
| Preprocess.Lower | backend/utils/preprocess.py:53 | lower-casing keeps the length and lowers each ASCII letter |
| Preprocess.RemoveUrls | backend/utils/preprocess.py:55 | URL removal only deletes, and leaves a text with no `http`/`www` match unchanged |
| Preprocess.RemoveUrlsDropsUrl | backend/utils/preprocess.py:55 | when a URL starts the text, the whole non-whitespace run is deleted and scanning resumes after it |
| Preprocess.RemoveUrlsCopiesChar | backend/utils/preprocess.py:55 | when no URL starts the text, its first character is kept and scanning resumes at the next one |
| Preprocess.RemoveUrlsShortens | backend/utils/preprocess.py:55 | a text in which some URL match starts comes out strictly shorter, so with the unchanged case URL removal changes a text exactly when it holds a URL |
| Preprocess.ReplaceMentions | backend/utils/preprocess.py:57 | afterwards no `@` is followed by a word character, and every character comes from the input or the marker |
| Preprocess.ReplaceMentionsWithoutMention | backend/utils/preprocess.py:57 | a text in which no `@` is followed by a word character is left unchanged |
| Preprocess.WordCharPrefixOfName | backend/utils/preprocess.py:57 | the greedy `\w+` takes the whole run of word characters and stops before the first other character |
| Preprocess.ReplaceMentionsCopiesChar | backend/utils/preprocess.py:57 | a character other than `@` is copied, and the rest of the text is treated alike |
| Preprocess.ReplaceMentionsCopiesLoneAt | backend/utils/preprocess.py:57 | an `@` that no word character follows is copied |
| Preprocess.ReplaceMentionsMarksMention | backend/utils/preprocess.py:57 | `@` followed by a maximal run of word characters becomes `<USER>`; with the two rows above this fixes the result on every input |
| Preprocess.KeepLettersAndWhitespace | backend/utils/preprocess.py:65 | only ASCII letters and whitespace remain |
| Preprocess.KeepCons | backend/utils/preprocess.py:65 | the character filter works character by character: a leading letter or whitespace character is kept in front of the filtered rest, any other is dropped |
| Preprocess.KeepOnlyDeletes | backend/utils/preprocess.py:65 | the filter only deletes, and leaves a letters-and-whitespace text unchanged |
| Preprocess.CollapseWhitespace | backend/utils/preprocess.py:67 | the only whitespace left is `' '`, never two in a row; every other character comes from the input; the output starts with a space exactly when the input starts with whitespace |
| Preprocess.CollapseKeepsTokens | backend/utils/preprocess.py:67 | collapsing keeps the tokens of `str.split()`, in order: only the whitespace between them changes |
| Preprocess.StripSingleSpaced | backend/utils/preprocess.py:67 | stripping such a text makes it single-spaced |
| Preprocess.NormalizeSpaces | backend/utils/preprocess.py:67 | the result is exactly `" ".join(text.split())`: the tokens of the text, in order, joined by single spaces |
| Preprocess.CollapseKeepsLoneSpaces | backend/utils/preprocess.py:67 | text whose only whitespace is isolated `' '` characters is left unchanged by the collapse |
| Preprocess.NormalizeSpacesIdempotent | backend/utils/preprocess.py:67 | a single-spaced text is its own normalisation, so normalising twice equals normalising once |
| Preprocess.CleanText | backend/utils/preprocess.py:48-70 | whatever `demojize` returns, the result holds only ASCII letters and spaces |
| Preprocess.MentionBecomesUpperCaseWord | backend/utils/preprocess.py:53-69 | upper case survives cleaning: "@a" cleans to "USER" |
| Preprocess.MarkerTextCleansToUser | backend/utils/preprocess.py:53-69 | any comment whose lower-casing, URL removal and mention replacement leave exactly `<USER>` cleans to the upper-case word "USER", given an emoji converter that leaves the marker alone |
| Preprocess.DetectLanguage | backend/utils/preprocess.py:119-129 | "unknown" exactly on a detection failure; "en" exactly when detection gave "en" or "unknown" or the text has under three words; else the detected code |
| Preprocess.TranslationRouting | backend/utils/preprocess.py:123-138 | a comment is translated exactly when detection failed, or named a language other than English for a text of three or more words |
| Preprocess.ShortCommentsTranslatedOnlyOnFailure | backend/utils/preprocess.py:125-138 | a comment of under three words is translated only when detection failed |
| Preprocess.PreprocessComment | backend/utils/preprocess.py:131-142 | the preprocessed comment is the cleaned comment when no translation is needed and the cleaned translation otherwise, and holds only ASCII letters and spaces |
| Preprocess.TranslatorUsedExactlyWhenNeeded | backend/utils/preprocess.py:135-140 | the translator influences the result only when translation is needed, and then the result is the cleaned translation |
| Pipeline.ProcessComments | backend/process_comments.py:7-37 | one row per comment, in order; row `i` holds comment `i`, its cleaned text, the label predicted for that text and the untouched probability array |
| Pipeline.RowsAppend | backend/process_comments.py:16-37 | comments are processed independently: the rows of a concatenation are the concatenated rows |
| Pipeline.RowsSmall | backend/process_comments.py:13-37 | worked example: no comments give no rows; one comment gives the one row built from it |
| YouTube.FindId | backend/routes/youtube.py:21 | `re.search` finds the leftmost `v=` that eleven id characters follow, or reports that there is none |
| YouTube.ExtractVideoId | backend/routes/youtube.py:17-25 | succeeds exactly when some `v=` is followed by eleven id characters; the id is the eleven characters after the leftmost such `v=`; else `ValueError` with the fixed message |
| YouTube.ExtractExample | backend/routes/youtube.py:21-23 | characters after the eleventh are ignored |
| YouTube.ExtractSkipsShortExample | backend/routes/youtube.py:21-23 | a `v=` with too short an id is skipped for a later one |
| YouTube.Rewrap | backend/routes/youtube.py:45-48 | `HttpError` and `ValueError` become a plain `Exception` with their prefix; other exceptions pass unchanged |
| YouTube.FetchFor | backend/routes/youtube.py:17-63 | only plain exceptions leave the `try` block's fetch; a `youtube_url` that is not a string makes `re.search` raise `TypeError` without the API being consulted; an unusable URL raises the doubled message |
| YouTube.NonStringUrlIsServerError | backend/routes/youtube.py:61-72 | a `youtube_url` that is not a string is answered with 500 and the `TypeError` text |
| YouTube.FetchComments | backend/routes/youtube.py:27-48 | only plain exceptions leave it; an unusable URL gives the doubled "Invalid YouTube URL" message; an API failure gives the wrapped API error |
| YouTube.FetchConsultsOnlyTheIdRequest | backend/routes/youtube.py:32-40 | the API is asked one request only, for the extracted id, and not at all for an unusable URL |
| YouTube.FetchCommentsRoute | backend/routes/youtube.py:52-72 | 400 exactly for a falsy JSON body or an object without `youtube_url`, with the fixed message; 200 exactly with results, which are processed comments; otherwise 500 |
| YouTube.InvalidInputFetchesNothing | backend/routes/youtube.py:57-59 | a rejected body is answered without the API or the models having any influence |
| YouTube.InvalidUrlIsServerError | backend/routes/youtube.py:45-72 | an unusable URL is answered with 500 and "Invalid YouTube URL: Invalid YouTube URL. Could not extract video ID." |
| YouTube.SuccessfulFetchIsOk | backend/routes/youtube.py:61-67 | a successful fetch is answered with 200 and the processed comments of the response items |
| YouTube.ApiFailureIsServerError | backend/routes/youtube.py:62-72 | an API failure is answered with 500 and the wrapped error text |
| ResultsView.FilterLabel | frontend/src/App.jsx:153-156 | the filtered list holds exactly the rows with the label, and no more rows than the input |
| ResultsView.FilterAppend | frontend/src/App.jsx:153-156 | filtering keeps order: it distributes over concatenation |
| ResultsView.FilterAllKept | frontend/src/App.jsx:153-156 | a list with only that label passes whole |
| ResultsView.CountsPartition | frontend/src/App.jsx:144-147 | positive, neutral, negative and other labels partition the results |
| ResultsView.CountOtherZero | frontend/src/App.jsx:144-147 | no row lies outside the three labels exactly when every label is 0, 1 or 2 |
| ResultsView.CountsSumToTotal | frontend/src/App.jsx:144-147 | the three counts sum to the total exactly when every label is 0, 1 or 2; each is at most the total |
| ResultsView.Filtered | frontend/src/App.jsx:150-156 | "all" lists every row; "positive" and "neutral" list the rows labelled 2 and 1, in their order; every other tab value lists the rows labelled 0, in their order |
| ResultsView.FilterFallsThrough | frontend/src/App.jsx:154-156 | an unknown tab value lists what the negative tab lists |
| ResultsView.RoundBounds | frontend/src/App.jsx:173 | the integer formula lies within half a point of `100 * count / total` and within 0..100 |
| ResultsView.Percent | frontend/src/App.jsx:173 | the nearest integer to the exact percentage, halves up, in 0..100; `NaN` or `Infinity` for a zero total |
| ResultsView.PercentagesNearlySumTo100 | frontend/src/App.jsx:170-196 | with valid labels and a non-empty list, the three percentages sum to 99, 100 or 101 |
| ResultsView.RoundedSum | frontend/src/App.jsx:170-196 | three shares of one total, rounded separately, sum to 99..101 |
| ResultsView.PercentSumExampleLow | frontend/src/App.jsx:182 | three thirds give 33 + 33 + 33 = 99 |
| ResultsView.PercentSumExampleHigh | frontend/src/App.jsx:173-191 | 1/8, 1/8, 6/8 give 13 + 13 + 75 = 101 |
| ResultsView.DecimalText | frontend/src/App.jsx:230 | a natural number renders as the digits that denote it, with no leading zero |
| ResultsView.PercentText | frontend/src/App.jsx:229-231 | a card shows a percent text exactly when it was given a percentage |
| ResultsView.Cards | frontend/src/App.jsx:161-197 | four cards Total, Positive, Neutral, Negative selecting tabs all, positive, neutral, negative and counting all rows and the rows labelled 2, 1, 0; the total card has no percentage; the label cards always have one; exactly the card of the active tab is highlighted |
| ResultsView.CardCountsMatchLists | frontend/src/App.jsx:161-202 | clicking a card lists as many comments as the card counts; at most one card is highlighted |
| ResultsView.EmptyResultsShowNaN | frontend/src/App.jsx:170-196 | with no results the label cards show "NaN%" and the total card no percent |
| ResultsView.PercentTextExample | frontend/src/App.jsx:229-231 | two of three renders as "67%" |
| ResultsView.LabelName | frontend/src/App.jsx:240-246 | a label has a name exactly when it is 0, 1 or 2 |
| ResultsView.Capitalize | frontend/src/App.jsx:202 | an ASCII lower-case first character becomes its upper-case letter, any other first character is kept, and the rest of the tab name is unchanged |
| ResultsView.CardsAgreeWithHeading | frontend/src/App.jsx:240-246 | under a label tab, every comment card names the label the heading names |
| Analyzer.Submit | frontend/src/App.jsx:27-37 | a blank URL only sets the error and posts nothing; otherwise it posts the URL, shows the spinner, clears the error, hides the instructions and keeps the results |
| Analyzer.FailureMessage | frontend/src/App.jsx:46 | the server's error text when non-empty, else the fallback; never empty |
| Analyzer.Settle | frontend/src/App.jsx:39-49 | success replaces the results; failure sets a non-empty error and keeps the results; loading ends; nothing else changes |
| Analyzer.PanelOf | frontend/src/App.jsx:85-91 | spinner exactly when loading; instructions, results or nothing as the flags say |
| Analyzer.Step | frontend/src/App.jsx:27-91 | typing only changes the URL; an answer with no request pending changes nothing; a click on one of the four cards while the results show sets exactly that card's tab and changes nothing else; any other click changes nothing |
| Analyzer.InstructionsUntilFirstRequest | frontend/src/App.jsx:25-37 | the instructions stay up exactly until the first request is posted and never come back |
| Analyzer.StepConsistent | frontend/src/App.jsx:81-91 | each event keeps an empty panel explained by an error, and the tab one of the four |
| Analyzer.RunConsistent | frontend/src/App.jsx:81-91 | any run of events keeps those two facts |
| Analyzer.InitialConsistent | frontend/src/App.jsx:21-25 | the initial state is consistent and shows the instructions |
| Analyzer.FailureKeepsResults | frontend/src/App.jsx:44-49 | a failure after a success leaves the earlier results on screen, below the error |

## Left out

- Character classes are ASCII only:
  - `str.lower()` lowers only ASCII letters; Unicode lowering, which can change the length, is not modelled.
  - `\w` and `\d` are modelled as ASCII word characters and digits.
  - `re.IGNORECASE` folds only ASCII letters.
  - The `\s` of `clean_text` and the whitespace of `str.split()` are modelled exactly, as `str.isspace`.
- The foreign libraries are uninterpreted parameters: `emoji.demojize`, `langdetect.detect`, the translator and the sentiment model. Exceptions other than `LangDetectException` raised inside them are not modelled, nor are exceptions raised inside `process_comments`.
- `remove_stopwords` is left out: it is never called and needs spaCy.
- The `YouTubeAPI` constructor and the API key check are left out: they are configuration.
- The API response is reduced to the list of top-level `textDisplay` strings. A malformed item that would raise `KeyError` is not modelled.
- The route's request body is a falsy JSON value (`null`, `false`, `0`, `""`, `[]`) or a JSON object. A body of `true`, or a truthy JSON array, string or number, is not modelled.
- An absent or non-JSON request body is left out: `request.get_json()` then raises inside Flask, which answers with its own 400 or 415 error page, not the route's fixed message.
- Preprocess.CollapseWhitespace: its own contract states the shape of the output only. That the tokens survive, in order, is stated by `Preprocess.CollapseKeepsTokens`, whose induction follows the tokens rather than the function's character-by-character recursion.
- YouTube.FetchFor: for a non-string `youtube_url`, the `TypeError` text follows current CPython's wording; other versions word it differently.
- ResultsView.Percent: computed over exact rationals. Floating-point drift in `count / total * 100` is not modelled, so a value one ulp below a half could round differently in the browser.
- The probability bars and per-probability percent labels of `CommentCard` are left out: floating-point widths and CSS.
- JSX markup, styling, and the `App`, `Instructions` and `LoadingState` components are left out: they are presentation only.
- The commented-out mock copy of the client is left out: it is dead code.
- The axios POST is an opaque outcome. React's asynchronous scheduling is not modelled.
- Analyzer.Step: the disabled submit button while loading is not modelled, so a second submit during loading is allowed in the model. An answer is applied only while a request is pending.
- `backend/routes/sentiment.py`, `backend/models/sentiment_model.py`, `backend/utils/translate.py`, `app.py` and `test.py` are not part of this model: a thin model wrapper, foreign inference, a foreign translator, bootstrap code and a demo script.

=== FILE: analyzer.dfy ===
/** The `CommentAnalyzer` component of `frontend/src/App.jsx`: the state record behind
    the form, the `handleSubmit` transitions, and the choice of the panel under the form.
    The POST request is foreign: its answer enters as an event carrying the outcome. */
module Analyzer {
  import opened Wire
  import ResultsView

  /** The characters `String.prototype.trim` removes: ECMAScript white space and line
      terminators. */
  predicate IsJsSpace(c: char) {
    || ('\t' <= c <= '\r') || c == ' ' || c == '\U{A0}' || c == '\U{1680}'
    || ('\U{2000}' <= c <= '\U{200A}')
    || c == '\U{2028}' || c == '\U{2029}' || c == '\U{202F}' || c == '\U{205F}'
    || c == '\U{3000}' || c == '\U{FEFF}'
  }

  /** `!url.trim()`: the URL is empty once trimmed. */
  predicate Blank(url: string) {
    forall k :: 0 <= k < |url| ==> IsJsSpace(url[k])
  }

  /** The component's state hooks, together with the `activeTab` hook of the
      `ResultsDisplay` child, which starts at "all" whenever the child is mounted. */
  datatype State = State(
    url: string,
    isLoading: bool,
    error: string,
    results: Option<seq<Row>>,
    showInstructions: bool,
    activeTab: string)

  const Initial: State := State("", false, "", None, true, "all")

  const EmptyUrlMessage: string := "Please enter a YouTube URL"
  const FallbackMessage: string := "An error occurred while fetching comments"

  /** What the synchronous part of `handleSubmit` leaves behind, and the URL it posts,
      if any. */
  datatype Submitted = Submitted(state: State, posted: Option<string>)

  /** The part of `handleSubmit` before the `await`. A blank URL only sets the error and
      posts nothing. Otherwise the request for the URL is posted, the spinner comes on,
      the error and the instructions go away, and the results child is unmounted, so its
      tab will read "all" when it comes back. */
  function Submit(s: State): (r: Submitted)
    ensures r.posted.Some? <==> !Blank(s.url)
    ensures r.posted.None? ==> r.state == s.(error := EmptyUrlMessage)
    ensures r.posted.Some? ==> r.posted.value == s.url && r.state.url == s.url
    ensures r.posted.Some? ==>
      && r.state.isLoading && r.state.error == "" && !r.state.showInstructions
      && r.state.results == s.results && r.state.activeTab == "all"
  {
    if Blank(s.url) then Submitted(s.(error := EmptyUrlMessage), None)
    else Submitted(s.(isLoading := true, error := "", showInstructions := false, activeTab := "all"), Some(s.url))
  }

  /** How the POST ends: with the `results` of the response body, or with an error that
      may carry the server's `error` field. */
  datatype Outcome = Success(rows: seq<Row>) | Failure(serverError: Option<string>)

  /** `err.response?.data?.error || 'An error occurred while fetching comments'`: an empty
      or missing server message gives way to the fallback. */
  function FailureMessage(serverError: Option<string>): (m: string)
    ensures m != ""
    ensures serverError.Some? && serverError.value != "" ==> m == serverError.value
  {
    if serverError.Some? && serverError.value != "" then serverError.value else FallbackMessage
  }

  /** The part of `handleSubmit` after the `await`. Success replaces the results;
      failure sets the error and keeps whatever results were there before. The spinner
      goes off either way, and nothing else changes. */
  function Settle(s: State, o: Outcome): (r: State)
    ensures !r.isLoading
    ensures r.url == s.url && r.showInstructions == s.showInstructions && r.activeTab == s.activeTab
    ensures o.Success? ==> r.results == Some(o.rows) && r.error == s.error
    ensures o.Failure? ==> r.results == s.results && r.error != ""
    ensures o.Failure? && o.serverError.Some? && o.serverError.value != "" ==> r.error == o.serverError.value
    ensures o.Failure? && (o.serverError.None? || o.serverError.value == "") ==> r.error == FallbackMessage
  {
    match o
    case Success(rows) => s.(results := Some(rows), isLoading := false)
    case Failure(e) => s.(error := FailureMessage(e), isLoading := false)
  }

  /** What is shown under the form. An empty result list still counts as results: `[]` is
      truthy in JavaScript. */
  datatype Panel = InstructionsPanel | Spinner | ResultsPanel(rows: seq<Row>, tab: string) | NoPanel

  /** The conditional chain under the form: instructions, spinner, results or nothing. */
  function PanelOf(s: State): (p: Panel)
    ensures p.Spinner? <==> s.isLoading
    ensures p.InstructionsPanel? <==> s.showInstructions && s.results.None? && !s.isLoading
    ensures p.ResultsPanel? <==> !s.isLoading && s.results.Some?
    ensures p.ResultsPanel? ==> p.rows == s.results.value && p.tab == s.activeTab
    ensures p.NoPanel? <==> !s.isLoading && s.results.None? && !s.showInstructions
  {
    if s.showInstructions && s.results.None? && !s.isLoading then InstructionsPanel
    else if s.isLoading then Spinner
    else if s.results.Some? then ResultsPanel(s.results.value, s.activeTab)
    else NoPanel
  }

  /** `{error && <p>{error}</p>}`. */
  predicate ErrorShown(s: State) {
    s.error != ""
  }

  /** What can happen to the component: typing in the field, submitting the form, the
      answer to the pending request arriving, and a click on one of the four summary cards
      (indexed 0 to 3, as `ResultsView.Cards` lists them). */
  datatype Event = Type(text: string) | SubmitForm | Answer(outcome: Outcome) | ClickCard(index: nat)

  /** One event. An answer only arrives while a request is pending, and a card can only
      be clicked while the results are on screen. */
  function Step(s: State, e: Event): (r: State)
    ensures e.Type? ==> r == s.(url := e.text)
    ensures e.Answer? && !s.isLoading ==> r == s
    ensures e.ClickCard? ==> r.activeTab in {s.activeTab, "all", "positive", "neutral", "negative"}
    ensures e.ClickCard? && PanelOf(s).ResultsPanel? && e.index < 4 ==>
      r == s.(activeTab := ResultsView.CardTabs[e.index])
    ensures e.ClickCard? && !(PanelOf(s).ResultsPanel? && e.index < 4) ==> r == s
  {
    match e
    case Type(t) => s.(url := t)
    case SubmitForm => Submit(s).state
    case Answer(o) => if s.isLoading then Settle(s, o) else s
    case ClickCard(k) =>
      if PanelOf(s).ResultsPanel? && k < 4 then s.(activeTab := ResultsView.Cards(s.results.value, s.activeTab)[k].tab)
      else s
  }

  /** The state after a sequence of events. */
  function Run(s: State, es: seq<Event>): State
    decreases |es|
  {
    if es == [] then s else Run(Step(s, es[0]), es[1..])
  }

  /** The number of requests posted along a sequence of events. */
  function Posted(s: State, es: seq<Event>): nat
    decreases |es|
  {
    if es == [] then 0
    else (if es[0].SubmitForm? && !Blank(s.url) then 1 else 0) + Posted(Step(s, es[0]), es[1..])
  }

  /** The instructions stay up exactly until the first request is posted, and never come
      back. */
  lemma {:induction false} InstructionsUntilFirstRequest(s: State, es: seq<Event>)
    ensures Run(s, es).showInstructions <==> s.showInstructions && Posted(s, es) == 0
    decreases |es|
  {
    if es != [] {
      InstructionsUntilFirstRequest(Step(s, es[0]), es[1..]);
    }
  }

  /** The states the component can be in, as far as the panels and the tabs go: an
      empty panel always comes with an error message, and the tab is always one the
      cards set. */
  predicate Consistent(s: State) {
    && (PanelOf(s).NoPanel? ==> ErrorShown(s))
    && s.activeTab in {"all", "positive", "neutral", "negative"}
  }

  lemma {:induction false} StepConsistent(s: State, e: Event)
    requires Consistent(s)
    ensures Consistent(Step(s, e))
  {
    if e.ClickCard? && PanelOf(s).ResultsPanel? && e.index < 4 {
      var cs := ResultsView.Cards(s.results.value, s.activeTab);
      assert cs[e.index].tab in {"all", "positive", "neutral", "negative"};
    }
  }

  /** From the initial state, whatever happens: the area under the form is never left
      blank without an error message to explain it, and the comment list is never
      filtered by a tab value other than the four the cards set, so the fall-through to
      the negative filter is never taken. */
  lemma {:induction false} RunConsistent(s: State, es: seq<Event>)
    requires Consistent(s)
    ensures Consistent(Run(s, es))
    decreases |es|
  {
    if es != [] {
      StepConsistent(s, es[0]);
      RunConsistent(Step(s, es[0]), es[1..]);
    }
  }

  lemma InitialConsistent()
    ensures Consistent(Initial) && PanelOf(Initial) == InstructionsPanel
  {
  }

  /** A failed request after a successful one leaves the earlier results on screen with
      the error above them. */
  lemma FailureKeepsResults(s: State, rows: seq<Row>, e: Option<string>)
    requires !Blank(s.url)
    ensures var t := Step(Step(Step(Step(s, SubmitForm), Answer(Success(rows))), SubmitForm), Answer(Failure(e)));
      PanelOf(t) == ResultsPanel(rows, "all") && ErrorShown(t)
  {
  }
}

=== FILE: contractions.dfy ===
/** Word-wise expansion of contractions and chat slang (`expand_contractions` and
    `handle_case_specific_words` of `backend/utils/preprocess.py`). */
module Contractions {
  import opened PyText

  /** The fixed expansion table. Each key is one whitespace-free token, matched exactly
      and case-sensitively; each value is listed as the words it expands to, so the
      replacement string is `Join` of that list ("don't" becomes "do not"). */
  const Table: map<string, seq<string>> := map[
    "don't" := ["do", "not"],
    "can't" := ["cannot"],
    "won't" := ["will", "not"],
    "it's" := ["it", "is"],
    "you're" := ["you", "are"],
    "i'm" := ["i", "am"],
    "they're" := ["they", "are"],
    "we're" := ["we", "are"],
    "isn't" := ["is", "not"],
    "aren't" := ["are", "not"],
    "doesn't" := ["does", "not"],
    "didn't" := ["did", "not"],
    "hasn't" := ["has", "not"],
    "haven't" := ["have", "not"],
    "couldn't" := ["could", "not"],
    "shouldn't" := ["should", "not"],
    "wouldn't" := ["would", "not"],
    "u" := ["you"],
    "ur" := ["your"],
    "lol" := ["laughing", "out", "loud"],
    "idk" := ["i", "do", "not", "know"],
    "brb" := ["be", "right", "back"],
    "btw" := ["by", "the", "way"],
    "omg" := ["oh", "my", "god"],
    "lmao" := ["laughing", "my", "ass", "off"]
  ]

  /** The keys that carry no apostrophe: the slang abbreviations. */
  const SlangKeys: set<string> := {"u", "ur", "lol", "idk", "brb", "btw", "omg", "lmao"}

  /** No token of `ws` is a key of the table. */
  predicate NoKeys(ws: seq<string>) {
    forall i :: 0 <= i < |ws| ==> ws[i] !in Table
  }

  lemma KeysShape()
    ensures forall k | k in Table :: '\'' in k || k in SlangKeys
  {
  }

  lemma ValueWordsNotSlang()
    ensures forall k | k in Table :: forall i | 0 <= i < |Table[k]| :: Table[k][i] !in SlangKeys
  {
  }

  lemma ValueWordsLowercase()
    ensures forall k | k in Table :: |Table[k]| > 0 && forall i | 0 <= i < |Table[k]| ::
      |Table[k][i]| > 0 && forall j | 0 <= j < |Table[k][i]| :: 'a' <= Table[k][i][j] <= 'z'
  {
  }

  /** Every value of the table is a non-empty list of words none of which is itself a key. */
  lemma TableValuesAreFinal()
    ensures forall k | k in Table :: |Table[k]| > 0 && AllWords(Table[k]) && NoKeys(Table[k])
  {
    KeysShape();
    ValueWordsNotSlang();
    ValueWordsLowercase();
  }

  /** The words a single token stands for after expansion. */
  function TokenWords(w: string): (r: seq<string>)
    ensures |r| > 0
  {
    TableValuesAreFinal();
    if w in Table then Table[w] else [w]
  }

  /** `contractions[word] if word in contractions else word`. */
  function ExpandToken(w: string): string {
    if w in Table then Join(Table[w]) else w
  }

  /** The list comprehension over the tokens of the text. */
  function ExpandTokens(ws: seq<string>): (r: seq<string>)
    ensures |r| == |ws|
    ensures forall i :: 0 <= i < |ws| ==> r[i] == ExpandToken(ws[i])
  {
    if ws == [] then [] else [ExpandToken(ws[0])] + ExpandTokens(ws[1..])
  }

  /** The word lists the tokens stand for. */
  function TokenWordsEach(ws: seq<string>): (r: seq<seq<string>>)
    ensures |r| == |ws|
    ensures forall i :: 0 <= i < |ws| ==> r[i] == TokenWords(ws[i])
  {
    if ws == [] then [] else [TokenWords(ws[0])] + TokenWordsEach(ws[1..])
  }

  /** The word sequence the expanded text consists of: each token replaced, in place,
      by the words it stands for. */
  function ExpandedWords(ws: seq<string>): seq<string> {
    Flatten(TokenWordsEach(ws))
  }

  /** Expanding words yields words, none of which is a key. */
  lemma {:induction false} ExpandedWordsFinal(ws: seq<string>)
    requires AllWords(ws)
    ensures AllWords(ExpandedWords(ws)) && NoKeys(ExpandedWords(ws))
    ensures |ExpandedWords(ws)| >= |ws|
  {
    TableValuesAreFinal();
    if ws != [] {
      ExpandedWordsFinal(ws[1..]);
      assert TokenWordsEach(ws)[1..] == TokenWordsEach(ws[1..]);
      var head, tail := TokenWords(ws[0]), ExpandedWords(ws[1..]);
      assert ExpandedWords(ws) == head + tail;
      assert AllWords(head) && NoKeys(head) by {
        if ws[0] !in Table {
          assert head == [ws[0]];
        }
      }
    }
  }

  lemma ExpandTokensAsJoins(ws: seq<string>)
    ensures ExpandTokens(ws) == JoinEach(TokenWordsEach(ws))
  {
    forall i | 0 <= i < |ws|
      ensures ExpandToken(ws[i]) == Join(TokenWords(ws[i]))
    {
    }
  }

  /** `expand_contractions`: split the text on whitespace, replace each token found in the
      table, and join the result with single spaces. The result is exactly the expanded
      word sequence, single-spaced: no whitespace but `' '`, none at either end, never two
      spaces in a row, and never fewer words than the input. */
  function ExpandContractions(text: string): (r: string)
    ensures r == Join(ExpandedWords(Split(text)))
    ensures Split(r) == ExpandedWords(Split(text))
    ensures SingleSpaced(r)
    ensures |Split(r)| >= |Split(text)|
  {
    var ws := Split(text);
    SplitWords(text);
    ExpandedWordsFinal(ws);
    ExpandTokensAsJoins(ws);
    JoinOfJoins(TokenWordsEach(ws));
    SplitJoin(ExpandedWords(ws));
    JoinSingleSpaced(ExpandedWords(ws));
    Join(ExpandTokens(ws))
  }

  /** `handle_case_specific_words`: the same comprehension under another name. */
  function HandleCaseSpecificWords(text: string): (r: string)
    ensures r == ExpandContractions(text)
  {
    Join(ExpandTokens(Split(text)))
  }

  /** Tokens none of which is a key are left alone. */
  lemma ExpandTokensOfNoKeys(ws: seq<string>)
    requires NoKeys(ws)
    ensures ExpandTokens(ws) == ws
  {
  }

  /** Expanding twice is expanding once: no word the table produces is itself a key. */
  lemma ExpandContractionsIdempotent(text: string)
    ensures ExpandContractions(ExpandContractions(text)) == ExpandContractions(text)
  {
    var r := ExpandContractions(text);
    var ws := ExpandedWords(Split(text));
    SplitWords(text);
    ExpandedWordsFinal(Split(text));
    ExpandTokensOfNoKeys(ws);
    assert Split(r) == ws;
  }

  /** The lookup is exact and case-sensitive: "Don't" is not a key, "u" is. */
  lemma CaseSensitiveExample()
    ensures ExpandContractions("Don't u") == "Don't you"
  {
    assert Split("Don't u") == ["Don't", "u"] by { SplitExample(); }
    assert Join(ExpandedWords(["Don't", "u"])) == "Don't you" by { ExpandedExample(); }
  }

  lemma SplitExample()
    ensures Split("Don't u") == ["Don't", "u"]
  {
    var a, b := "Don't", "u";
    assert IsWord(a) && IsWord(b);
    assert "Don't u" == a + " " + b;
    SplitWordSpace(a, b);
    SplitOfWord(b);
  }

  lemma ExpandedExample()
    ensures Join(ExpandedWords(["Don't", "u"])) == "Don't you"
  {
    var a := "Don't";
    assert a !in Table by { KeysShape(); }
    assert "u" in Table && Table["u"] == ["you"];
    assert TokenWordsEach([a, "u"]) == [[a], ["you"]];
    assert [[a], ["you"]][1..] == [["you"]];
    assert Flatten([["you"]]) == ["you"];
    assert Flatten([[a], ["you"]]) == [a] + ["you"];
    assert Join([a, "you"]) == a + " " + "you";
  }
}

=== FILE: pipeline.dfy ===
/** `process_comments` of `backend/process_comments.py`: clean every comment, predict a
    sentiment for every cleaned comment, and zip the raw comments with the predictions.
    The preprocessor and the sentiment model are foreign code and enter as parameters. */
module Pipeline {
  import opened Wire

  /** What `SentimentAnalyzer.predict` returns: the argmax label and the whole softmax
      array, batch dimension included. */
  datatype Prediction = Prediction(sentimentLabel: int, probabilities: seq<seq<real>>)

  /** The response entry for one raw comment. */
  function RowOf(comment: string, preprocess: string -> string, predict: string -> Prediction): Row {
    var cleaned := preprocess(comment);
    Row(comment, cleaned, predict(cleaned).sentimentLabel, predict(cleaned).probabilities)
  }

  /** The whole response, one entry per comment, in order. */
  function Rows(comments: seq<string>, preprocess: string -> string, predict: string -> Prediction): seq<Row> {
    seq(|comments|, i requires 0 <= i < |comments| => RowOf(comments[i], preprocess, predict))
  }

  /** The three loops of `process_comments`: preprocess every comment, predict for every
      cleaned comment, then pair each raw comment with the prediction at the same
      position. The response has one entry per comment, in the order of the comments;
      entry `i` holds comment `i`, its cleaned text, the label predicted for that text and
      the probability array exactly as the predictor returned it. */
  method ProcessComments(comments: seq<string>, preprocess: string -> string, predict: string -> Prediction)
    returns (response: seq<Row>)
    ensures |response| == |comments|
    ensures forall i :: 0 <= i < |comments| ==>
      && response[i].originalComment == comments[i]
      && response[i].cleanedComment == preprocess(comments[i])
      && response[i].sentimentLabel == predict(preprocess(comments[i])).sentimentLabel
      && response[i].sentimentProbabilities == predict(preprocess(comments[i])).probabilities
    ensures response == Rows(comments, preprocess, predict)
  {
    var processed: seq<string> := [];
    for i := 0 to |comments|
      invariant |processed| == i
      invariant forall k :: 0 <= k < i ==> processed[k] == preprocess(comments[k])
    {
      processed := processed + [preprocess(comments[i])];
    }
    var sentiments: seq<(string, Prediction)> := [];
    for i := 0 to |processed|
      invariant |sentiments| == i
      invariant forall k :: 0 <= k < i ==> sentiments[k] == (processed[k], predict(processed[k]))
    {
      sentiments := sentiments + [(processed[i], predict(processed[i]))];
    }
    response := [];
    for i := 0 to |comments|
      invariant |response| == i
      invariant forall k :: 0 <= k < i ==> response[k] == RowOf(comments[k], preprocess, predict)
    {
      var (cleaned, p) := sentiments[i];
      response := response + [Row(comments[i], cleaned, p.sentimentLabel, p.probabilities)];
    }
  }

  /** Comments are processed independently: the response for a concatenation is the
      concatenation of the responses. */
  lemma RowsAppend(a: seq<string>, b: seq<string>, preprocess: string -> string, predict: string -> Prediction)
    ensures Rows(a + b, preprocess, predict) == Rows(a, preprocess, predict) + Rows(b, preprocess, predict)
  {
  }

  /** No comments, no response entries; one comment, one entry. */
  lemma RowsSmall(c: string, preprocess: string -> string, predict: string -> Prediction)
    ensures Rows([], preprocess, predict) == []
    ensures Rows([c], preprocess, predict) == [RowOf(c, preprocess, predict)]
  {
  }
}

=== FILE: preprocess.dfy ===
/** `Preprocessor.clean_text`, `detect_language` and `preprocess_comment` of
    `backend/utils/preprocess.py`. The emoji library, the language detector and the
    translator are foreign code; they enter the model as function parameters about
    which nothing is assumed. */
module Preprocess {
  import opened PyText
  import Contractions
  import Repeats
  import opened Promotion

  /** Nothing but ASCII letters and `' '`. */
  predicate LettersAndSpaces(s: string) {
    forall k :: 0 <= k < |s| ==> IsAsciiLetter(s[k]) || s[k] == ' '
  }

  /** A text that only lost characters keeps a letters-and-spaces alphabet. */
  lemma {:induction false} SubMultisetKeepsAlphabet(r: string, s: string)
    requires multiset(r) <= multiset(s)
    requires LettersAndSpaces(s)
    ensures LettersAndSpaces(r)
  {
    forall k | 0 <= k < |r|
      ensures IsAsciiLetter(r[k]) || r[k] == ' '
    {
      assert r[k] in multiset(r);
      assert r[k] in multiset(s);
      var j :| 0 <= j < |s| && s[j] == r[k];
    }
  }

  /** `text.lower()`, for the ASCII letters. */
  function Lower(s: string): (r: string)
    ensures |r| == |s|
    ensures forall k :: 0 <= k < |s| ==> r[k] == AsciiLower(s[k])
  {
    if s == [] then [] else [AsciiLower(s[0])] + Lower(s[1..])
  }

  /** A match of `http\S+|www\S+|https\S+` starts at the front of `s`. The third
      alternative adds nothing: whatever it matches, the first one matches too. */
  predicate UrlAtFront(s: string) {
    || (|s| > 4 && s[..4] == "http" && !IsSpace(s[4]))
    || (|s| > 3 && s[..3] == "www" && !IsSpace(s[3]))
  }

  /** `re.sub(r"http\S+|www\S+|https\S+", "", text)`: the greedy `\S+` takes the match
      to the next whitespace character or the end of the text. */
  function RemoveUrls(s: string): (r: string)
    ensures multiset(r) <= multiset(s)
    ensures (forall k :: 0 <= k < |s| ==> !UrlAtFront(s[k..])) ==> r == s
    decreases |s|
  {
    if s == [] then []
    else if UrlAtFront(s) then
      var w := WordPrefix(s);
      assert w == [s[0]] + WordPrefix(s[1..]);
      SuffixMultiset(s, |w|);
      assert s[0..] == s;
      RemoveUrls(s[|w|..])
    else
      assert s == [s[0]] + s[1..];
      UrlFreeTail(s);
      [s[0]] + RemoveUrls(s[1..])
  }

  lemma SuffixMultiset(s: string, n: nat)
    requires n <= |s|
    ensures multiset(s[n..]) <= multiset(s)
  {
    assert s == s[..n] + s[n..];
  }

  /** A text in which no URL starts has a tail in which no URL starts. */
  lemma UrlFreeTail(s: string)
    requires s != []
    ensures (forall k :: 0 <= k < |s| ==> !UrlAtFront(s[k..])) ==>
      forall k :: 0 <= k < |s| - 1 ==> !UrlAtFront(s[1..][k..])
  {
    forall k | 0 <= k < |s| - 1
      ensures s[1..][k..] == s[k + 1..]
    {
    }
  }

  /** A URL at the front goes, up to the next whitespace character or the end. */
  lemma RemoveUrlsDropsUrl(s: string)
    requires UrlAtFront(s)
    ensures RemoveUrls(s) == RemoveUrls(s[|WordPrefix(s)|..])
  {
  }

  /** Without a URL at the front, the first character is kept. With the lemma above, this
      fixes `RemoveUrls` on every input. */
  lemma RemoveUrlsCopiesChar(s: string)
    requires s != [] && !UrlAtFront(s)
    ensures RemoveUrls(s) == [s[0]] + RemoveUrls(s[1..])
  {
  }

  lemma {:induction false} RemoveUrlsNoLonger(s: string)
    ensures |RemoveUrls(s)| <= |s|
    decreases |s|
  {
    if s != [] {
      if UrlAtFront(s) {
        var w := WordPrefix(s);
        assert w == [s[0]] + WordPrefix(s[1..]);
        RemoveUrlsNoLonger(s[|w|..]);
      } else {
        RemoveUrlsNoLonger(s[1..]);
      }
    }
  }

  /** A text in which some URL match starts comes out shorter: with the unchanged case
      of `RemoveUrls`, the text changes exactly when it holds a URL. */
  lemma {:induction false} RemoveUrlsShortens(s: string, k: nat)
    requires k < |s| && UrlAtFront(s[k..])
    ensures |RemoveUrls(s)| < |s|
    decreases |s|
  {
    if UrlAtFront(s) {
      var w := WordPrefix(s);
      assert w == [s[0]] + WordPrefix(s[1..]);
      RemoveUrlsNoLonger(s[|w|..]);
    } else {
      assert k > 0 by { assert s[0..] == s; }
      assert s[1..][k - 1..] == s[k..];
      RemoveUrlsShortens(s[1..], k - 1);
    }
  }

  /** The longest prefix of `\w` characters. */
  function WordCharPrefix(s: string): (r: string)
    ensures |r| <= |s| && r == s[..|r|]
    ensures s != [] && IsWordChar(s[0]) ==> |r| > 0
    ensures forall k :: 0 <= k < |r| ==> IsWordChar(r[k])
    ensures |r| == |s| || !IsWordChar(s[|r|])
  {
    if s != [] && IsWordChar(s[0]) then [s[0]] + WordCharPrefix(s[1..]) else []
  }

  /** What a mention is replaced with. */
  const UserMarker: string := "<USER>"

  /** `re.sub(r"@\w+", "<USER>", text)`: afterwards every `@` left is one that no word
      character follows, and every character is an input character or one of the marker. */
  function ReplaceMentions(s: string): (r: string)
    ensures forall k :: 0 <= k < |r| ==> r[k] in s || r[k] in UserMarker
    ensures forall k :: 0 <= k < |r| - 1 && r[k] == '@' ==> !IsWordChar(r[k + 1])
    ensures s != [] ==> r != [] && (r[0] == s[0] || r[0] == '<')
    decreases |s|
  {
    if s == [] then []
    else if |s| >= 2 && s[0] == '@' && IsWordChar(s[1]) then
      var n := 1 + |WordCharPrefix(s[1..])|;
      var rest := ReplaceMentions(s[n..]);
      assert forall k :: 0 <= k < |rest| && rest[k] in s[n..] ==> rest[k] in s;
      UserMarker + rest
    else
      var rest := ReplaceMentions(s[1..]);
      assert forall k :: 0 <= k < |rest| && rest[k] in s[1..] ==> rest[k] in s;
      [s[0]] + rest
  }

  /** A non-empty run of word characters: the name of a mention. */
  predicate IsMentionName(w: string) {
    |w| > 0 && forall k :: 0 <= k < |w| ==> IsWordChar(w[k])
  }

  /** The `\w+` of a mention takes the whole run of word characters. */
  lemma {:induction false} WordCharPrefixOfName(w: string, b: string)
    requires forall k :: 0 <= k < |w| ==> IsWordChar(w[k])
    requires b == [] || !IsWordChar(b[0])
    ensures WordCharPrefix(w + b) == w
  {
    if w == [] {
      assert w + b == b;
    } else {
      assert (w + b)[1..] == w[1..] + b;
      WordCharPrefixOfName(w[1..], b);
      assert w == [w[0]] + w[1..];
    }
  }

  /** A character other than `@` is copied. */
  lemma ReplaceMentionsCopiesChar(c: char, b: string)
    requires c != '@'
    ensures ReplaceMentions([c] + b) == [c] + ReplaceMentions(b)
  {
    assert ([c] + b)[1..] == b;
  }

  /** An `@` that no word character follows is copied. */
  lemma ReplaceMentionsCopiesLoneAt(b: string)
    requires b == [] || !IsWordChar(b[0])
    ensures ReplaceMentions(['@'] + b) == ['@'] + ReplaceMentions(b)
  {
    assert (['@'] + b)[1..] == b;
  }

  /** `@` and the whole run of word characters after it become the marker. With the two
      lemmas above, this determines `ReplaceMentions` on every input. */
  lemma ReplaceMentionsMarksMention(w: string, b: string)
    requires IsMentionName(w)
    requires b == [] || !IsWordChar(b[0])
    ensures ReplaceMentions(['@'] + w + b) == UserMarker + ReplaceMentions(b)
  {
    var s := ['@'] + w + b;
    assert s[1] == w[0];
    assert s[1..] == w + b;
    WordCharPrefixOfName(w, b);
    assert s[1 + |w|..] == b;
  }

  /** A text in which no `@` is followed by a word character holds no mention and is
      left unchanged. */
  lemma {:induction false} ReplaceMentionsWithoutMention(s: string)
    requires forall k :: 0 <= k < |s| - 1 && s[k] == '@' ==> !IsWordChar(s[k + 1])
    ensures ReplaceMentions(s) == s
    decreases |s|
  {
    if s != [] {
      var t := s[1..];
      assert forall k :: 0 <= k < |t| ==> t[k] == s[k + 1];
      ReplaceMentionsWithoutMention(t);
      assert s == [s[0]] + s[1..];
    }
  }

  /** `re.sub(r"[^a-zA-Z\s]", "", text)`: keep the ASCII letters and the whitespace. */
  function KeepLettersAndWhitespace(s: string): (r: string)
    ensures forall k :: 0 <= k < |r| ==> IsAsciiLetter(r[k]) || IsSpace(r[k])
  {
    if s == [] then []
    else
      var rest := KeepLettersAndWhitespace(s[1..]);
      if IsAsciiLetter(s[0]) || IsSpace(s[0]) then [s[0]] + rest else rest
  }

  /** The filter only deletes, and deletes nothing from a text that is already made of
      letters and whitespace. */
  lemma {:induction false} KeepOnlyDeletes(s: string)
    ensures multiset(KeepLettersAndWhitespace(s)) <= multiset(s)
    ensures (forall k :: 0 <= k < |s| ==> IsAsciiLetter(s[k]) || IsSpace(s[k])) ==> KeepLettersAndWhitespace(s) == s
  {
    if s != [] {
      assert s == [s[0]] + s[1..];
      KeepOnlyDeletes(s[1..]);
    }
  }

  /** `re.sub(r"\s+", " ", text)`: each maximal run of whitespace becomes one `' '`. */
  function CollapseWhitespace(s: string): (r: string)
    ensures forall k :: 0 <= k < |r| ==> r[k] == ' ' || (!IsSpace(r[k]) && r[k] in s)
    ensures forall k :: 0 <= k < |r| - 1 ==> !(r[k] == ' ' && r[k + 1] == ' ')
    ensures s != [] ==> r != [] && (IsSpace(s[0]) <==> r[0] == ' ')
    decreases |s|
  {
    if s == [] then []
    else if IsSpace(s[0]) then
      var t := LStrip(s[1..]);
      LStripIsSuffix(s[1..]);
      var rest := CollapseWhitespace(t);
      PrependShape(' ', rest, t, s);
      [' '] + rest
    else
      var rest := CollapseWhitespace(s[1..]);
      PrependShape(s[0], rest, s[1..], s);
      [s[0]] + rest
  }

  /** One step of the collapse: a space, or a character of the input that is not
      whitespace, put in front of a collapsed piece of the input. */
  lemma PrependShape(c: char, rest: string, src: string, s: string)
    requires c == ' ' || (!IsSpace(c) && c in s)
    requires forall k :: 0 <= k < |src| ==> src[k] in s
    requires forall k :: 0 <= k < |rest| ==> rest[k] == ' ' || (!IsSpace(rest[k]) && rest[k] in src)
    requires forall k :: 0 <= k < |rest| - 1 ==> !(rest[k] == ' ' && rest[k + 1] == ' ')
    requires src != [] ==> rest != [] && (IsSpace(src[0]) <==> rest[0] == ' ')
    requires c == ' ' ==> src == [] || !IsSpace(src[0])
    requires src == [] ==> rest == []
    ensures forall k :: 0 <= k < |[c] + rest| ==>
      ([c] + rest)[k] == ' ' || (!IsSpace(([c] + rest)[k]) && ([c] + rest)[k] in s)
    ensures forall k :: 0 <= k < |[c] + rest| - 1 ==> !(([c] + rest)[k] == ' ' && ([c] + rest)[k + 1] == ' ')
  {
    var r := [c] + rest;
    forall k | 0 < k < |r|
      ensures r[k] == rest[k - 1]
    {
    }
    forall k | 0 <= k < |rest| && rest[k] in src
      ensures rest[k] in s
    {
      var j :| 0 <= j < |src| && src[j] == rest[k];
    }
  }

  /** Collapsing whitespace keeps the tokens of the text, in order: only the whitespace
      between them changes. */
  lemma {:induction false} CollapseKeepsTokens(s: string)
    ensures Split(CollapseWhitespace(s)) == Split(s)
    decreases |s|
  {
    if s != [] {
      if IsSpace(s[0]) {
        var t := LStrip(s[1..]);
        var rest := CollapseWhitespace(t);
        assert CollapseWhitespace(s) == [' '] + rest;
        SplitSkipsSpace(' ', rest);
        CollapseKeepsTokens(t);
        assert t == LStrip(s);
        SplitLStrip(s);
      } else {
        var rest := CollapseWhitespace(s[1..]);
        assert CollapseWhitespace(s) == [s[0]] + rest;
        CollapseKeepsTokens(s[1..]);
        assert s == [s[0]] + s[1..];
        assert rest != [] ==> (IsSpace(rest[0]) <==> IsSpace(s[1..][0]));
        SplitCons(s[0], rest);
        SplitCons(s[0], s[1..]);
      }
    }
  }

  /** Whitespace that is lone `' '` characters: no other whitespace, never two in a row. */
  predicate LoneSpaces(c: string) {
    && (forall k :: 0 <= k < |c| ==> IsSpace(c[k]) ==> c[k] == ' ')
    && (forall k :: 0 <= k < |c| - 1 ==> !(c[k] == ' ' && c[k + 1] == ' '))
  }

  lemma {:induction false} SliceLoneSpaces(c: string, a: nat, b: nat)
    requires LoneSpaces(c) && a <= b <= |c|
    ensures LoneSpaces(c[a..b])
    ensures forall k :: 0 <= k < b - a ==> c[a..b][k] in c
  {
    var t := c[a..b];
    forall k | 0 <= k < |t| - 1
      ensures !(t[k] == ' ' && t[k + 1] == ' ')
    {
      assert t[k] == c[a + k] && t[k + 1] == c[a + k + 1];
    }
  }

  /** `str.strip()` of a text whose whitespace is lone `' '` characters gives a
      single-spaced text made of characters of the input. */
  lemma {:induction false} StripSingleSpaced(c: string)
    requires LoneSpaces(c)
    ensures SingleSpaced(Strip(c))
    ensures forall k :: 0 <= k < |Strip(c)| ==> Strip(c)[k] in c
  {
    var l := LStrip(c);
    var d := |c| - |l|;
    var r := RStrip(l);
    assert Strip(c) == r;
    assert LoneSpaces(r) && forall k :: 0 <= k < |r| ==> r[k] in c by {
      assert l == c[d..] by { LStripIsSuffix(c); }
      assert r == c[d..d + |r|];
      SliceLoneSpaces(c, d, d + |r|);
    }
    assert r == [] || (!IsSpace(r[0]) && !IsSpace(r[|r| - 1])) by {
      assert r == [] || r[0] == l[0];
    }
    TrimmedLoneSpaces(r);
  }

  /** Lone spaces with no whitespace at either end make a single-spaced text. */
  lemma TrimmedLoneSpaces(r: string)
    requires LoneSpaces(r)
    requires r == [] || (!IsSpace(r[0]) && !IsSpace(r[|r| - 1]))
    ensures SingleSpaced(r)
  {
  }

  /** `re.sub(r"\s+", " ", text).strip()`: the tokens of the text joined by single
      spaces, which is also `" ".join(text.split())`. */
  function NormalizeSpaces(s: string): (r: string)
    ensures r == Join(Split(s))
    ensures SingleSpaced(r)
    ensures forall k :: 0 <= k < |r| ==> r[k] == ' ' || r[k] in s
  {
    var c := CollapseWhitespace(s);
    StripSingleSpaced(c);
    CollapseKeepsTokens(s);
    SplitStrip(c);
    JoinSplitSingleSpaced(Strip(c));
    Strip(c)
  }

  /** Whitespace that already is lone spaces is left alone by the collapse. */
  lemma {:induction false} CollapseKeepsLoneSpaces(s: string)
    requires LoneSpaces(s)
    ensures CollapseWhitespace(s) == s
    decreases |s|
  {
    if s != [] {
      SliceLoneSpaces(s, 1, |s|);
      assert s[1..|s|] == s[1..];
      CollapseKeepsLoneSpaces(s[1..]);
      if IsSpace(s[0]) {
        assert s[1..] == [] || !IsSpace(s[1..][0]);
        assert LStrip(s[1..]) == s[1..];
      }
      assert s == [s[0]] + s[1..];
    }
  }

  /** Normalising a single-spaced text changes nothing, so normalising is idempotent. */
  lemma NormalizeSpacesIdempotent(s: string)
    ensures SingleSpaced(s) ==> NormalizeSpaces(s) == s
    ensures NormalizeSpaces(NormalizeSpaces(s)) == NormalizeSpaces(s)
  {
    forall t | SingleSpaced(t)
      ensures NormalizeSpaces(t) == t
    {
      CollapseKeepsLoneSpaces(t);
      assert LStrip(t) == t;
      assert RStrip(t) == t;
    }
  }

  /** `clean_text`. Whatever `demojize` returns, the result holds nothing but ASCII
      letters and spaces. Upper-case letters can survive: the `<USER>` marker is put in
      after the text has been lower-cased, and only its brackets are removed. */
  function CleanText(text: string, demojize: string -> string): (r: string)
    ensures LettersAndSpaces(r)
  {
    var lowered := Lower(text);
    var noUrls := RemoveUrls(lowered);
    var noMentions := ReplaceMentions(noUrls);
    var noEmoji := demojize(noMentions);
    var expanded := Contractions.ExpandContractions(noEmoji);
    var reduced := Repeats.ReduceRepeatedCharacters(expanded);
    var kept := KeepLettersAndWhitespace(reduced);
    var normalized := NormalizeSpaces(kept);
    assert LettersAndSpaces(normalized) by {
      forall k | 0 <= k < |normalized|
        ensures IsAsciiLetter(normalized[k]) || normalized[k] == ' '
      {
        if normalized[k] != ' ' {
          var j :| 0 <= j < |kept| && kept[j] == normalized[k];
        }
      }
    }
    var r := RemovePromotionalContent(normalized);
    SubMultisetKeepsAlphabet(r, normalized);
    r
  }

  /** The outcome of `langdetect.detect`: a language code, or `LangDetectException`. */
  datatype Detection = Detected(code: string) | DetectionFailed

  /** `detect_language`. It answers "unknown" exactly when detection raised; it answers
      "en" when the detector says "en" or "unknown" or the text has fewer than three
      words; otherwise it answers the detected code. */
  function DetectLanguage(text: string, detect: string -> Detection): (lang: string)
    ensures lang == "unknown" <==> detect(text).DetectionFailed?
    ensures lang == "en" <==>
      detect(text).Detected? && (detect(text).code in {"en", "unknown"} || |Split(text)| < 3)
    ensures lang != "en" && lang != "unknown" ==>
      lang == detect(text).code && |Split(text)| >= 3
  {
    match detect(text)
    case DetectionFailed => "unknown"
    case Detected(language) =>
      if language == "unknown" || |Split(text)| < 3 then "en" else language
  }

  /** The foreign collaborators of the preprocessor. */
  datatype Services = Services(
    detect: string -> Detection,
    translate: string -> string,
    demojize: string -> string)

  /** Whether `preprocess_comment` hands the comment to the translator. */
  predicate NeedsTranslation(comment: string, detect: string -> Detection) {
    DetectLanguage(comment, detect) != "en"
  }

  /** `preprocess_comment`: translate unless the language is English, then clean. */
  function PreprocessComment(comment: string, services: Services): (r: string)
    ensures LettersAndSpaces(r)
    ensures !NeedsTranslation(comment, services.detect) ==> r == CleanText(comment, services.demojize)
    ensures NeedsTranslation(comment, services.detect) ==>
      r == CleanText(services.translate(comment), services.demojize)
  {
    var text := if NeedsTranslation(comment, services.detect) then services.translate(comment) else comment;
    CleanText(text, services.demojize)
  }

  /** The comment is translated exactly when detection raised, or when it named a
      language other than English for a text of at least three words. */
  lemma TranslationRouting(comment: string, detect: string -> Detection)
    ensures NeedsTranslation(comment, detect) <==>
      || detect(comment).DetectionFailed?
      || (detect(comment).code !in {"en", "unknown"} && |Split(comment)| >= 3)
  {
  }

  /** A comment of fewer than three words reaches the translator only when detection
      raised. */
  lemma ShortCommentsTranslatedOnlyOnFailure(comment: string, detect: string -> Detection)
    requires |Split(comment)| < 3
    ensures NeedsTranslation(comment, detect) <==> detect(comment).DetectionFailed?
  {
  }

  /** When the comment needs no translation, the translator has no influence on the
      result, and when it does, the original comment has none beyond its translation. */
  lemma TranslatorUsedExactlyWhenNeeded(comment: string, s1: Services, s2: Services)
    requires s1.detect == s2.detect && s1.demojize == s2.demojize
    ensures !NeedsTranslation(comment, s1.detect) ==>
      PreprocessComment(comment, s1) == PreprocessComment(comment, s2)
    ensures NeedsTranslation(comment, s1.detect) && s1.translate(comment) == s2.translate(comment) ==>
      PreprocessComment(comment, s1) == PreprocessComment(comment, s2)
    ensures NeedsTranslation(comment, s1.detect) ==>
      PreprocessComment(comment, s1) == CleanText(s1.translate(comment), s1.demojize)
  {
  }

  /** Upper case survives cleaning: a mention becomes the marker after lower-casing, and
      only the marker's brackets are removed. */
  lemma MentionBecomesUpperCaseWord(demojize: string -> string)
    requires demojize(UserMarker) == UserMarker
    ensures CleanText("@a", demojize) == "USER"
  {
    MentionMarked();
    MarkerTextCleansToUser("@a", demojize);
  }

  /** A text whose mention stage yields exactly the marker cleans to "USER". */
  lemma MarkerTextCleansToUser(text: string, demojize: string -> string)
    requires demojize(UserMarker) == UserMarker
    requires ReplaceMentions(RemoveUrls(Lower(text))) == UserMarker
    ensures CleanText(text, demojize) == "USER"
  {
    MarkerReachesFilter(demojize);
    MarkerCleansToUser();
  }

  /** The marker passes expansion and run reduction unchanged. */
  lemma MarkerReachesFilter(demojize: string -> string)
    requires demojize(UserMarker) == UserMarker
    ensures Repeats.ReduceRepeatedCharacters(Contractions.ExpandContractions(demojize(UserMarker))) == UserMarker
  {
    assert Contractions.ExpandContractions(UserMarker) == UserMarker by { MarkerSurvivesExpansion(); }
    Repeats.ReduceKeepsNoTriple(UserMarker);
  }

  /** The filter drops the marker's brackets, and the last two stages keep "USER". */
  lemma MarkerCleansToUser()
    ensures RemovePromotionalContent(NormalizeSpaces(KeepLettersAndWhitespace(UserMarker))) == "USER"
  {
    assert KeepLettersAndWhitespace(UserMarker) == "USER" by { MarkerLosesBrackets(); }
    assert NormalizeSpaces("USER") == "USER" by { UserNormalized(); }
    UserNotPromotional();
  }

  lemma MentionMarked()
    ensures ReplaceMentions(RemoveUrls(Lower("@a"))) == UserMarker
  {
    var s := "@a";
    assert Lower(s) == s by { LowerMention(); }
    assert RemoveUrls(s) == s by { MentionHasNoUrl(); }
    assert ReplaceMentions(s) == UserMarker by { MentionReplaced(); }
  }

  lemma LowerMention()
    ensures Lower("@a") == "@a"
  {
    assert Lower("a") == "a";
  }

  lemma MentionHasNoUrl()
    ensures RemoveUrls("@a") == "@a"
  {
    var s := "@a";
    assert !UrlAtFront(s[0..]) && !UrlAtFront(s[1..]);
  }

  lemma MentionReplaced()
    ensures ReplaceMentions("@a") == UserMarker
  {
    var s := "@a";
    assert IsWordChar(s[1]);
    assert WordCharPrefix("a") == "a";
    assert s[2..] == [];
  }

  lemma MarkerSurvivesExpansion()
    ensures Contractions.ExpandContractions(UserMarker) == UserMarker
  {
    assert IsWord(UserMarker);
    SplitOfWord(UserMarker);
    Contractions.KeysShape();
    assert UserMarker !in Contractions.Table;
    assert Contractions.TokenWordsEach([UserMarker]) == [[UserMarker]];
    assert Flatten([[UserMarker]]) == [UserMarker];
  }

  lemma KeepCons(c: char, t: string)
    ensures KeepLettersAndWhitespace([c] + t) ==
      (if IsAsciiLetter(c) || IsSpace(c) then [c] else []) + KeepLettersAndWhitespace(t)
  {
    assert ([c] + t)[1..] == t;
  }

  lemma KeepDropsFirst(c: char, t: string)
    requires !IsAsciiLetter(c) && !IsSpace(c)
    ensures KeepLettersAndWhitespace([c] + t) == KeepLettersAndWhitespace(t)
  {
    assert ([c] + t)[1..] == t;
  }

  /** Letters followed by one character that is dropped keep just the letters. */
  lemma {:induction false} KeepDropsLast(w: string, b: char)
    requires forall k :: 0 <= k < |w| ==> IsAsciiLetter(w[k])
    requires !IsAsciiLetter(b) && !IsSpace(b)
    ensures KeepLettersAndWhitespace(w + [b]) == w
  {
    if w == [] {
      KeepCons(b, []);
      assert w + [b] == [b] + [];
    } else {
      KeepDropsLast(w[1..], b);
      KeepCons(w[0], w[1..] + [b]);
      assert w + [b] == [w[0]] + (w[1..] + [b]);
    }
  }

  lemma MarkerLosesBrackets()
    ensures KeepLettersAndWhitespace(UserMarker) == "USER"
  {
    var w := "USER";
    var t := w + ['>'];
    assert UserMarker == ['<'] + t;
    assert KeepLettersAndWhitespace(t) == w by {
      assert forall k :: 0 <= k < |w| ==> IsAsciiLetter(w[k]);
      KeepDropsLast(w, '>');
    }
    assert KeepLettersAndWhitespace(['<'] + t) == KeepLettersAndWhitespace(t) by {
      KeepDropsFirst('<', t);
    }
  }

  lemma UserNormalized()
    ensures NormalizeSpaces("USER") == "USER"
  {
    var u := "USER";
    assert SingleSpaced(u);
    NormalizeSpacesIdempotent(u);
  }

  lemma UserNotPromotional()
    ensures RemovePromotionalContent("USER") == "USER"
  {
    var u := "USER";
    assert !HasTimestamp(u);
    forall k | 0 <= k < |PromotionalPhrases|
      ensures !ContainsIgnoringCase(u, PromotionalPhrases[k])
    {
      TooLongNotContained(u, PromotionalPhrases[k]);
    }
  }
}

=== FILE: promotion.dfy ===
/** `remove_promotional_content` of `backend/utils/preprocess.py`: delete every timestamp
    `\b\d{1,2}:\d{2}\b`, then every case-insensitive occurrence of four fixed promotional
    phrases, one phrase after the other. Every stage only deletes characters. */
module Promotion {

  predicate IsAsciiLetter(c: char) {
    'a' <= c <= 'z' || 'A' <= c <= 'Z'
  }

  predicate IsDigit(c: char) {
    '0' <= c <= '9'
  }

  /** The characters `\w` matches, restricted to ASCII. */
  predicate IsWordChar(c: char) {
    IsAsciiLetter(c) || IsDigit(c) || c == '_'
  }

  /** Lower-casing of the ASCII letters; every other character is its own lower case. */
  function AsciiLower(c: char): (l: char)
    ensures 'A' <= c <= 'Z' ==> 'a' <= l <= 'z' && l as int == c as int + 32
    ensures !('A' <= c <= 'Z') ==> l == c
  {
    if 'A' <= c <= 'Z' then (c as int + 32) as char else c
  }

  /** `\b\d{d}:\d{2}\b` matches at index `i` of `s`, with `d` digits before the colon.
      A word boundary before a digit means the character before it is no word character;
      one after the last digit means the same of the character after it. */
  predicate TimestampMatch(s: string, i: nat, d: nat)
    requires i <= |s|
  {
    && i + d + 3 <= |s|
    && (i == 0 || !IsWordChar(s[i - 1]))
    && (forall k :: i <= k < i + d ==> IsDigit(s[k]))
    && s[i + d] == ':'
    && IsDigit(s[i + d + 1]) && IsDigit(s[i + d + 2])
    && (i + d + 3 == |s| || !IsWordChar(s[i + d + 3]))
  }

  /** The length of the timestamp match starting at index `i` of `s`: 5 for `dd:dd`,
      4 for `d:dd`, 0 when no match starts there. A match needs a word boundary on both
      sides, so the character before it and the one after it must not be word
      characters. The greedy `\d{1,2}` and its one-digit fallback cannot both succeed:
      the fallback needs the colon where the greedy form needs a second digit. */
  function TimestampAt(s: string, i: nat): (n: nat)
    requires i <= |s|
    ensures n == 0 || n == 4 || n == 5
    ensures i + n <= |s|
    ensures n > 0 ==> IsDigit(s[i]) && (i == 0 || !IsWordChar(s[i - 1]))
    ensures n > 0 ==> s[i + n - 3] == ':' && (i + n == |s| || !IsWordChar(s[i + n]))
    ensures n == 5 <==> TimestampMatch(s, i, 2)
    ensures n == 4 <==> TimestampMatch(s, i, 1)
  {
    if i > 0 && IsWordChar(s[i - 1]) then 0
    else if i + 5 <= |s| && IsDigit(s[i]) && IsDigit(s[i + 1]) && s[i + 2] == ':'
      && IsDigit(s[i + 3]) && IsDigit(s[i + 4]) && (i + 5 == |s| || !IsWordChar(s[i + 5]))
    then 5
    else if i + 4 <= |s| && IsDigit(s[i]) && s[i + 1] == ':'
      && IsDigit(s[i + 2]) && IsDigit(s[i + 3]) && (i + 4 == |s| || !IsWordChar(s[i + 4]))
    then 4
    else 0
  }

  /** Some timestamp match starts at or after index `i`. */
  predicate HasTimestampFrom(s: string, i: nat)
    requires i <= |s|
  {
    exists j :: i <= j < |s| && TimestampAt(s, j) > 0
  }

  predicate HasTimestamp(s: string) {
    HasTimestampFrom(s, 0)
  }

  /** The `re.sub` scan for timestamps from index `i` on. Word boundaries look at the
      character before the current position in the original text, as the regular
      expression engine does. */
  function RemoveTimestampsFrom(s: string, i: nat): (r: string)
    requires i <= |s|
    ensures multiset(r) <= multiset(s[i..])
    ensures !HasTimestampFrom(s, i) ==> r == s[i..]
    ensures HasTimestampFrom(s, i) ==> |r| < |s| - i
    decreases |s| - i
  {
    if i == |s| then []
    else
      var n := TimestampAt(s, i);
      assert s[i..] == s[i..i + n] + s[i + n..];
      assert s[i..] == [s[i]] + s[i + 1..];
      if n > 0 then
        RemoveTimestampsFrom(s, i + n)
      else
        assert HasTimestampFrom(s, i) ==> HasTimestampFrom(s, i + 1);
        assert !HasTimestampFrom(s, i) ==> !HasTimestampFrom(s, i + 1);
        [s[i]] + RemoveTimestampsFrom(s, i + 1)
  }

  /** A timestamp starting at the scan position is deleted whole, and the scan resumes
      right after it. */
  lemma RemoveTimestampsDropsMatch(s: string, i: nat)
    requires i < |s| && TimestampAt(s, i) > 0
    ensures RemoveTimestampsFrom(s, i) == RemoveTimestampsFrom(s, i + TimestampAt(s, i))
  {
  }

  /** A character at which no timestamp starts is kept, and the scan moves on by one. */
  lemma RemoveTimestampsCopiesChar(s: string, i: nat)
    requires i < |s| && TimestampAt(s, i) == 0
    ensures RemoveTimestampsFrom(s, i) == [s[i]] + RemoveTimestampsFrom(s, i + 1)
  {
  }

  /** `re.sub(r"\b\d{1,2}:\d{2}\b", "", text)`. */
  function RemoveTimestamps(s: string): (r: string)
    ensures multiset(r) <= multiset(s)
    ensures !HasTimestamp(s) ==> r == s
    ensures HasTimestamp(s) ==> |r| < |s|
  {
    assert s[0..] == s;
    RemoveTimestampsFrom(s, 0)
  }

  /** A one-digit timestamp is found and removed. */
  lemma TimestampExample()
    ensures TimestampAt("1:05", 0) == 4
    ensures RemoveTimestamps("1:05") == []
  {
    var s := "1:05";
    assert TimestampMatch(s, 0, 1);
    assert RemoveTimestampsFrom(s, 4) == [];
  }

  /** `s` starts with `p`, ignoring the case of ASCII letters. */
  predicate StartsWithIgnoringCase(s: string, p: string) {
    |p| <= |s| && forall k :: 0 <= k < |p| ==> AsciiLower(s[k]) == AsciiLower(p[k])
  }

  /** `p` occurs somewhere in `s`, ignoring the case of ASCII letters. */
  predicate ContainsIgnoringCase(s: string, p: string) {
    exists j :: 0 <= j <= |s| && StartsWithIgnoringCase(s[j..], p)
  }

  lemma {:induction false} ContainsStep(s: string, p: string)
    requires s != []
    ensures ContainsIgnoringCase(s, p) <==>
      StartsWithIgnoringCase(s, p) || ContainsIgnoringCase(s[1..], p)
  {
    if ContainsIgnoringCase(s, p) && !StartsWithIgnoringCase(s, p) {
      var j :| 0 <= j <= |s| && StartsWithIgnoringCase(s[j..], p);
      assert j != 0;
      assert s[1..][j - 1..] == s[j..];
    }
    if ContainsIgnoringCase(s[1..], p) {
      var j :| 0 <= j <= |s| - 1 && StartsWithIgnoringCase(s[1..][j..], p);
      assert s[1..][j..] == s[j + 1..];
    }
    if StartsWithIgnoringCase(s, p) {
      assert s[0..] == s;
    }
  }

  lemma TooLongNotContained(s: string, p: string)
    requires |p| > |s|
    ensures !ContainsIgnoringCase(s, p)
  {
  }

  /** `re.sub(re.escape(p), "", s, flags=re.IGNORECASE)`: leftmost, non-overlapping
      occurrences of the literal `p` are deleted. */
  function RemovePhrase(s: string, p: string): (r: string)
    requires |p| > 0
    ensures multiset(r) <= multiset(s)
    ensures !ContainsIgnoringCase(s, p) ==> r == s
    ensures ContainsIgnoringCase(s, p) ==> |r| < |s|
    decreases |s|
  {
    if s == [] then
      assert !StartsWithIgnoringCase(s[0..], p);
      []
    else
      ContainsStep(s, p);
      if StartsWithIgnoringCase(s, p) then
        assert s == s[..|p|] + s[|p|..];
        RemovePhrase(s[|p|..], p)
      else
        assert s == [s[0]] + s[1..];
        [s[0]] + RemovePhrase(s[1..], p)
  }

  /** An occurrence of the phrase at the front is deleted, and the scan resumes right
      after it. */
  lemma RemovePhraseDropsMatch(s: string, p: string)
    requires |p| > 0 && StartsWithIgnoringCase(s, p)
    ensures RemovePhrase(s, p) == RemovePhrase(s[|p|..], p)
  {
  }

  /** A first character at which the phrase does not start is kept, and the scan moves
      on by one. */
  lemma RemovePhraseCopiesChar(s: string, p: string)
    requires |p| > 0 && s != [] && !StartsWithIgnoringCase(s, p)
    ensures RemovePhrase(s, p) == [s[0]] + RemovePhrase(s[1..], p)
  {
  }

  /** The promotional phrases, in the order the loop removes them. */
  const PromotionalPhrases: seq<string> :=
    ["subscribe to my channel", "like and subscribe", "follow me on", "check out my website"]

  /** The `for phrase in ...` loop: remove each phrase in turn from the running text.
      The text is left alone exactly when none of the phrases occurs in it. */
  function RemovePhrases(s: string, ps: seq<string>): (r: string)
    requires forall k :: 0 <= k < |ps| ==> |ps[k]| > 0
    ensures multiset(r) <= multiset(s)
    ensures (forall k :: 0 <= k < |ps| ==> !ContainsIgnoringCase(s, ps[k])) ==> r == s
    ensures (exists k :: 0 <= k < |ps| && ContainsIgnoringCase(s, ps[k])) ==> |r| < |s|
    decreases |ps|
  {
    if ps == [] then s
    else
      var t := RemovePhrase(s, ps[0]);
      var r := RemovePhrases(t, ps[1..]);
      assert forall k :: 1 <= k < |ps| ==> ps[1..][k - 1] == ps[k];
      r
  }

  /** `remove_promotional_content`: the result only loses characters, and it equals the
      input exactly when the input holds no timestamp and none of the phrases. */
  function RemovePromotionalContent(text: string): (r: string)
    ensures multiset(r) <= multiset(text) && |r| <= |text|
    ensures r == text <==>
      !HasTimestamp(text) &&
      forall k :: 0 <= k < |PromotionalPhrases| ==> !ContainsIgnoringCase(text, PromotionalPhrases[k])
  {
    var t := RemoveTimestamps(text);
    RemovePhrases(t, PromotionalPhrases)
  }
}

=== FILE: pytext.dfy ===
/** Python's view of text, as the backend relies on it: the whitespace class of
    `str.isspace` (which is also what `\s` matches in a `str` regular expression),
    `str.split()` with no separator, `" ".join(...)` and `str.strip()`. */
module PyText {

  /** The characters for which Python's `str.isspace` is true. */
  predicate IsSpace(c: char) {
    || c == ' '
    || ('\t' <= c <= '\r')
    || ('\U{1C}' <= c <= '\U{1F}')
    || c == '\U{85}' || c == '\U{A0}' || c == '\U{1680}'
    || ('\U{2000}' <= c <= '\U{200A}')
    || c == '\U{2028}' || c == '\U{2029}' || c == '\U{202F}' || c == '\U{205F}' || c == '\U{3000}'
  }

  /** A token of `str.split()`: non-empty and free of whitespace. */
  predicate IsWord(w: string) {
    |w| > 0 && forall i :: 0 <= i < |w| ==> !IsSpace(w[i])
  }

  /** Every element of `ws` is a word. */
  predicate AllWords(ws: seq<string>) {
    forall i :: 0 <= i < |ws| ==> IsWord(ws[i])
  }

  /** A string whose whitespace is single `' '` characters between words:
      nothing at either end and never two in a row. */
  predicate SingleSpaced(s: string) {
    && (forall i :: 0 <= i < |s| ==> IsSpace(s[i]) ==> s[i] == ' ')
    && (|s| > 0 ==> s[0] != ' ' && s[|s| - 1] != ' ')
    && (forall i :: 0 <= i < |s| - 1 ==> s[i] == ' ' ==> s[i + 1] != ' ')
  }

  /** Drops the leading whitespace of `s`. */
  function LStrip(s: string): (r: string)
    ensures |r| <= |s|
    ensures r == [] || !IsSpace(r[0])
  {
    if s != [] && IsSpace(s[0]) then LStrip(s[1..]) else s
  }

  /** Drops the trailing whitespace of `s`. */
  function RStrip(s: string): (r: string)
    ensures |r| <= |s| && r == s[..|r|]
    ensures r == [] || !IsSpace(r[|r| - 1])
    ensures forall i :: |r| <= i < |s| ==> IsSpace(s[i])
  {
    if s != [] && IsSpace(s[|s| - 1]) then RStrip(s[..|s| - 1]) else s
  }

  /** `str.strip()` with no argument. */
  function Strip(s: string): string {
    RStrip(LStrip(s))
  }

  /** The longest whitespace-free prefix of `s`. */
  function WordPrefix(s: string): (r: string)
    ensures |r| <= |s| && r == s[..|r|]
    ensures forall i :: 0 <= i < |r| ==> !IsSpace(r[i])
    ensures |r| == |s| || IsSpace(s[|r|])
  {
    if s != [] && !IsSpace(s[0]) then [s[0]] + WordPrefix(s[1..]) else []
  }

  /** `s.split()`: the maximal runs of non-whitespace characters, in order. */
  function Split(s: string): seq<string>
    decreases |s|
  {
    var t := LStrip(s);
    if t == [] then []
    else
      var w := WordPrefix(t);
      assert |w| > 0 by { assert w == [t[0]] + WordPrefix(t[1..]); }
      [w] + Split(t[|w|..])
  }

  /** `" ".join(ws)`. */
  function Join(ws: seq<string>): string {
    if |ws| == 0 then ""
    else if |ws| == 1 then ws[0]
    else ws[0] + " " + Join(ws[1..])
  }

  /** The concatenation of a sequence of word lists. */
  function Flatten(wss: seq<seq<string>>): (r: seq<string>)
    ensures |r| >= |wss| || exists i :: 0 <= i < |wss| && wss[i] == []
  {
    if wss == [] then [] else wss[0] + Flatten(wss[1..])
  }

  /** `Join` of each word list. */
  function JoinEach(wss: seq<seq<string>>): (r: seq<string>)
    ensures |r| == |wss|
    ensures forall i :: 0 <= i < |wss| ==> r[i] == Join(wss[i])
  {
    if wss == [] then [] else [Join(wss[0])] + JoinEach(wss[1..])
  }

  /** Every token `Split` produces is a word. */
  lemma {:induction false} SplitWords(s: string)
    ensures AllWords(Split(s))
    decreases |s|
  {
    var t := LStrip(s);
    if t != [] {
      var w := WordPrefix(t);
      assert w == [t[0]] + WordPrefix(t[1..]);
      SplitWords(t[|w|..]);
    }
  }

  /** `LStrip` removes a prefix, and only whitespace. */
  lemma {:induction false} LStripIsSuffix(s: string)
    ensures LStrip(s) == s[|s| - |LStrip(s)|..]
    ensures forall i :: 0 <= i < |s| - |LStrip(s)| ==> IsSpace(s[i])
  {
    if s != [] && IsSpace(s[0]) {
      LStripIsSuffix(s[1..]);
    }
  }

  lemma WordPrefixOfWord(w: string, rest: string)
    requires IsWord(w)
    requires rest == [] || IsSpace(rest[0])
    ensures WordPrefix(w + rest) == w
  {
    if |w| > 1 {
      assert (w + rest)[1..] == w[1..] + rest;
      WordPrefixOfWord(w[1..], rest);
    } else {
      assert (w + rest)[1..] == rest;
    }
  }

  lemma SplitSkipsSpace(c: char, s: string)
    requires IsSpace(c)
    ensures Split([c] + s) == Split(s)
  {
    assert ([c] + s)[1..] == s;
  }

  lemma SplitWordThen(w: string, rest: string)
    requires IsWord(w)
    requires rest == [] || IsSpace(rest[0])
    ensures Split(w + rest) == [w] + Split(rest)
  {
    var s := w + rest;
    assert LStrip(s) == s;
    WordPrefixOfWord(w, rest);
    assert s[|w|..] == rest;
  }

  lemma SplitEmpty()
    ensures Split("") == [] && Join([]) == ""
  {
  }

  lemma SplitOfWord(w: string)
    requires IsWord(w)
    ensures Split(w) == [w]
  {
    assert w + "" == w;
    SplitWordThen(w, "");
    assert Split("") == [];
  }

  /** Splitting the join of a list of words gives the words back. */
  lemma SplitWordSpace(w: string, rest: string)
    requires IsWord(w)
    ensures Split(w + " " + rest) == [w] + Split(rest)
  {
    assert w + " " + rest == w + ([' '] + rest);
    SplitWordThen(w, [' '] + rest);
    SplitSkipsSpace(' ', rest);
  }

  lemma {:induction false} SplitJoin(ws: seq<string>)
    requires AllWords(ws)
    ensures Split(Join(ws)) == ws
  {
    if |ws| == 0 {
      SplitEmpty();
    } else if |ws| == 1 {
      SplitOfWord(ws[0]);
    } else {
      SplitWordSpace(ws[0], Join(ws[1..]));
      SplitJoin(ws[1..]);
      assert ws == [ws[0]] + ws[1..];
    }
  }

  /** Joining a non-empty list of words gives a single-spaced string. */
  lemma {:induction false} JoinSingleSpaced(ws: seq<string>)
    requires AllWords(ws)
    ensures SingleSpaced(Join(ws))
    ensures |ws| > 0 ==> |Join(ws)| > 0
  {
    if |ws| >= 2 {
      JoinSingleSpaced(ws[1..]);
      var w, rest := ws[0], Join(ws[1..]);
      var s := w + " " + rest;
      assert s == Join(ws);
      forall i | 0 <= i < |s| - 1 && s[i] == ' '
        ensures s[i + 1] != ' '
      {
        if i == |w| {
          assert s[i + 1] == rest[0];
        } else if i > |w| {
          assert s[i] == rest[i - |w| - 1];
          assert s[i + 1] == rest[i - |w|];
        }
      }
      forall i | 0 <= i < |s| && IsSpace(s[i])
        ensures s[i] == ' '
      {
        if i > |w| {
          assert s[i] == rest[i - |w| - 1];
        }
      }
    }
  }

  lemma {:induction false} JoinAppend(a: seq<string>, b: seq<string>)
    requires |a| > 0 && |b| > 0
    ensures Join(a + b) == Join(a) + " " + Join(b)
  {
    assert (a + b)[0] == a[0];
    assert (a + b)[1..] == a[1..] + b;
    if |a| > 1 {
      JoinAppend(a[1..], b);
    }
  }

  /** Joining the joins of non-empty word lists is joining their concatenation. */
  lemma {:induction false} JoinOfJoins(wss: seq<seq<string>>)
    requires forall i :: 0 <= i < |wss| ==> |wss[i]| > 0
    ensures Join(JoinEach(wss)) == Join(Flatten(wss))
    ensures |wss| > 0 ==> |Flatten(wss)| > 0
  {
    if |wss| == 1 {
      assert wss[1..] == [];
      assert Flatten(wss) == wss[0];
      assert JoinEach(wss) == [Join(wss[0])];
    } else if |wss| > 1 {
      JoinOfJoins(wss[1..]);
      JoinAppend(wss[0], Flatten(wss[1..]));
    }
  }
  /** `str.split()` ignores leading whitespace. */
  lemma SplitLStrip(s: string)
    ensures Split(LStrip(s)) == Split(s)
  {
    var t := LStrip(s);
    assert LStrip(t) == t;
  }

  /** Whitespace appended to a text adds no token. */
  lemma {:induction false} SplitTrailingSpace(a: string, b: string)
    requires forall i :: 0 <= i < |b| ==> IsSpace(b[i])
    ensures Split(a + b) == Split(a)
    decreases |a|
  {
    if a == [] {
      assert a + b == b;
      AllSpaceStrips(b);
    } else if IsSpace(a[0]) {
      SplitTrailingSpace(a[1..], b);
      SplitTrailingAfterSpace(a, b);
    } else {
      var w := WordPrefix(a);
      assert w == [a[0]] + WordPrefix(a[1..]);
      var rest := a[|w|..];
      assert a == w + rest;
      assert a + b == w + (rest + b);
      SplitTrailingSpace(rest, b);
      SplitAfterWord(w, rest + b, rest);
    }
  }

  lemma SplitTrailingAfterSpace(a: string, b: string)
    requires a != [] && IsSpace(a[0])
    requires Split(a[1..] + b) == Split(a[1..])
    ensures Split(a + b) == Split(a)
  {
    assert a + b == [a[0]] + (a[1..] + b);
    SplitSkipsSpace(a[0], a[1..] + b);
    assert a == [a[0]] + a[1..];
    SplitSkipsSpace(a[0], a[1..]);
  }

  /** Tails with the same tokens keep the same tokens behind a word. */
  lemma SplitAfterWord(w: string, t1: string, t2: string)
    requires IsWord(w)
    requires t1 == [] || IsSpace(t1[0])
    requires t2 == [] || IsSpace(t2[0])
    requires Split(t1) == Split(t2)
    ensures Split(w + t1) == Split(w + t2)
  {
    SplitWordThen(w, t1);
    SplitWordThen(w, t2);
  }

  lemma {:induction false} AllSpaceStrips(b: string)
    requires forall i :: 0 <= i < |b| ==> IsSpace(b[i])
    ensures LStrip(b) == [] && Split(b) == []
  {
    if b != [] {
      AllSpaceStrips(b[1..]);
    }
  }

  /** `str.split()` ignores the whitespace `str.strip()` removes. */
  lemma SplitStrip(s: string)
    ensures Split(Strip(s)) == Split(s)
  {
    var t := LStrip(s);
    var r := RStrip(t);
    assert t == r + t[|r|..];
    SplitTrailingSpace(r, t[|r|..]);
    SplitLStrip(s);
  }

  /** Putting a non-whitespace character in front of a text either extends its first
      token, when the text starts with one, or adds a token of its own. */
  lemma SplitCons(c: char, s: string)
    requires !IsSpace(c)
    ensures s != [] && !IsSpace(s[0]) ==> Split(s) != [] && Split([c] + s) == [[c] + Split(s)[0]] + Split(s)[1..]
    ensures s == [] || IsSpace(s[0]) ==> Split([c] + s) == [[c]] + Split(s)
  {
    var t := [c] + s;
    assert t[1..] == s;
    assert LStrip(t) == t;
    if s != [] && !IsSpace(s[0]) {
      assert LStrip(s) == s;
      var w := WordPrefix(s);
      assert w == [s[0]] + WordPrefix(s[1..]);
      assert WordPrefix(t) == [c] + w;
      assert t[1 + |w|..] == s[|w|..];
    } else {
      assert WordPrefix(s) == [];
      assert WordPrefix(t) == [c];
    }
  }

  /** A single-spaced text is the join of its own tokens. */
  lemma {:induction false} JoinSplitSingleSpaced(s: string)
    requires SingleSpaced(s)
    ensures Join(Split(s)) == s
    decreases |s|
  {
    if s != [] {
      var w := WordPrefix(s);
      assert w == [s[0]] + WordPrefix(s[1..]);
      if |w| == |s| {
        assert s == w;
        SplitOfWord(w);
      } else {
        assert s[|w|] == ' ';
        var tail := s[|w| + 1..];
        assert s == w + " " + tail;
        SingleSpacedAfterSpace(s, |w| + 1);
        JoinSplitSingleSpaced(tail);
        JoinWordThen(w, tail);
      }
    }
  }

  /** What follows a space of a single-spaced text is single-spaced. */
  lemma SingleSpacedAfterSpace(s: string, n: nat)
    requires SingleSpaced(s) && 0 < n < |s| && s[n - 1] == ' '
    ensures SingleSpaced(s[n..])
  {
    var tail := s[n..];
    assert forall i :: 0 <= i < |tail| ==> tail[i] == s[n + i];
  }

  /** The join of a word followed by the tokens of a single-spaced non-empty text. */
  lemma JoinWordThen(w: string, tail: string)
    requires IsWord(w) && SingleSpaced(tail) && tail != []
    requires Join(Split(tail)) == tail
    ensures Join(Split(w + " " + tail)) == w + " " + tail
  {
    SplitWordSpace(w, tail);
    assert LStrip(tail) == tail;
    assert Split(tail) != [];
    var ws := [w] + Split(tail);
    assert ws[1..] == Split(tail);
  }
}

=== FILE: repeats.dfy ===
/** `reduce_repeated_characters` of `backend/utils/preprocess.py`: the substitution
    `re.sub(r"(.)\1{2,}", r"\1", text)`. Python's `.` matches every character but a
    newline, and the scan is leftmost-first with a greedy repeat, so each match is a whole
    maximal run of one character. */
module Repeats {

  /** Three equal consecutive characters, other than newlines, starting at `i`. */
  predicate TripleAt(s: string, i: int)
    requires 0 <= i && i + 2 < |s|
  {
    s[i] != '\n' && s[i + 1] == s[i] && s[i + 2] == s[i]
  }

  /** No run of three or more equal characters other than newlines. */
  predicate NoTriple(s: string) {
    forall i :: 0 <= i && i + 2 < |s| ==> !TripleAt(s, i)
  }

  /** The length of the run of `s[0]` that `s` starts with. */
  function RunLength(s: string): (n: nat)
    requires |s| > 0
    ensures 1 <= n <= |s|
    ensures forall i :: 0 <= i < n ==> s[i] == s[0]
    ensures n == |s| || s[n] != s[0]
  {
    if |s| >= 2 && s[1] == s[0] then 1 + RunLength(s[1..]) else 1
  }

  /** The regular-expression scan: where a character is followed by two more copies of
      itself, the greedy `\1{2,}` swallows the whole run and one copy is emitted;
      elsewhere the character is copied and the scan moves on by one.
      The output keeps the first character, and the second one when it starts a new run,
      which is what rules out a triple across the point where two pieces meet. */
  function ReduceRepeatedCharacters(s: string): (r: string)
    ensures |r| <= |s|
    ensures |s| > 0 ==> |r| > 0 && r[0] == s[0]
    ensures |s| > 1 && s[1] != s[0] ==> |r| > 1 && r[1] == s[1]
    ensures NoTriple(r)
    decreases |s|
  {
    if |s| >= 3 && TripleAt(s, 0) then
      var rest := ReduceRepeatedCharacters(s[RunLength(s)..]);
      NoTripleCons(s[0], rest);
      [s[0]] + rest
    else if s == [] then []
    else
      var rest := ReduceRepeatedCharacters(s[1..]);
      NoTripleCons(s[0], rest);
      [s[0]] + rest
  }

  /** Putting `c` in front of a text without triples creates one only when the text
      starts with two copies of `c`. */
  lemma {:induction false} NoTripleCons(c: char, s: string)
    requires NoTriple(s)
    requires c == '\n' || |s| < 2 || s[0] != c || s[1] != c
    ensures NoTriple([c] + s)
  {
    var t := [c] + s;
    forall i | 0 <= i && i + 2 < |t|
      ensures !TripleAt(t, i)
    {
      if i > 0 {
        assert !TripleAt(s, i - 1);
      }
    }
  }

  /** The run reading of the substitution: every maximal run of one character that is at
      least three long and not made of newlines shrinks to a single copy; shorter runs and
      runs of newlines are kept as they are. */
  function CollapseRuns(s: string): string
    decreases |s|
  {
    if s == [] then []
    else
      var n := RunLength(s);
      (if n >= 3 && s[0] != '\n' then [s[0]] else s[..n]) + CollapseRuns(s[n..])
  }

  lemma {:induction false} RunLengthOfTail(s: string)
    requires |s| > 0 && RunLength(s) >= 2
    ensures RunLength(s[1..]) == RunLength(s) - 1
  {
  }

  lemma {:induction false} CollapseKept(s: string)
    requires |s| > 0 && !(RunLength(s) >= 3 && s[0] != '\n')
    ensures CollapseRuns(s) == s[..RunLength(s)] + CollapseRuns(s[RunLength(s)..])
  {
  }

  lemma {:induction false} TailSlices(s: string, n: nat)
    requires 1 <= n <= |s|
    ensures s[1..][n - 1..] == s[n..]
    ensures [s[0]] + s[1..][..n - 1] == s[..n]
  {
  }

  lemma AppendAssoc(a: string, b: string, c: string)
    ensures a + (b + c) == (a + b) + c
  {
  }

  /** A kept run of two or more: collapsing the text after its first character keeps
      the rest of the run. */
  lemma {:induction false} CollapseKeptRun(s: string)
    requires |s| > 0 && RunLength(s) >= 2
    requires !(RunLength(s) >= 3 && s[0] != '\n')
    ensures [s[0]] + CollapseRuns(s[1..]) == s[..RunLength(s)] + CollapseRuns(s[RunLength(s)..])
  {
    var n := RunLength(s);
    var t := s[1..];
    RunLengthOfTail(s);
    assert t[0] == s[0];
    var m := RunLength(t);
    CollapseKept(t);
    TailSlices(s, n);
    var a := CollapseRuns(s[n..]);
    calc {
      [s[0]] + CollapseRuns(t);
      [s[0]] + (t[..m] + a);
      { AppendAssoc([s[0]], t[..m], a); }
      ([s[0]] + t[..m]) + a;
      s[..n] + a;
    }
  }

  /** The scan and the run reading agree on every input. */
  lemma {:induction false} ReduceIsCollapseRuns(s: string)
    ensures ReduceRepeatedCharacters(s) == CollapseRuns(s)
    decreases |s|
  {
    if s != [] {
      var n := RunLength(s);
      if n >= 3 && s[0] != '\n' {
        assert TripleAt(s, 0);
        ReduceIsCollapseRuns(s[n..]);
      } else {
        assert !(|s| >= 3 && TripleAt(s, 0));
        ReduceIsCollapseRuns(s[1..]);
        if n >= 2 {
          CollapseKeptRun(s);
        } else {
          assert s[..1] == [s[0]];
        }
      }
    }
  }

  /** A text with no run to shrink is left unchanged. */
  lemma {:induction false} ReduceKeepsNoTriple(s: string)
    requires NoTriple(s)
    ensures ReduceRepeatedCharacters(s) == s
    decreases |s|
  {
    if s != [] {
      assert !(|s| >= 3 && TripleAt(s, 0));
      assert NoTriple(s[1..]) by {
        forall i | 0 <= i && i + 2 < |s| - 1
          ensures !TripleAt(s[1..], i)
        {
          assert !TripleAt(s, i + 1);
        }
      }
      ReduceKeepsNoTriple(s[1..]);
    }
  }

  /** Reducing twice is reducing once. */
  lemma ReduceIdempotent(s: string)
    ensures ReduceRepeatedCharacters(ReduceRepeatedCharacters(s)) == ReduceRepeatedCharacters(s)
  {
    ReduceKeepsNoTriple(ReduceRepeatedCharacters(s));
  }
}

=== FILE: results_view.dfy ===
/** The `ResultsDisplay`, `SentimentCard` and `CommentCard` components of
    `frontend/src/App.jsx`: per-label counts, rounded percentages, the tab filter, the
    four summary cards and the label shown on each comment. */
module ResultsView {
  import opened Wire

  /** The rows whose label is `l`, in their order: `results.filter(r => r.sentiment_label === l)`. */
  function FilterLabel(rs: seq<Row>, l: int): (r: seq<Row>)
    ensures |r| <= |rs|
    ensures forall k :: 0 <= k < |r| ==> r[k].sentimentLabel == l
    ensures forall x :: x in r <==> x in rs && x.sentimentLabel == l
  {
    if rs == [] then []
    else (if rs[0].sentimentLabel == l then [rs[0]] else []) + FilterLabel(rs[1..], l)
  }

  /** Filtering keeps the order: it distributes over concatenation. */
  lemma {:induction false} FilterAppend(a: seq<Row>, b: seq<Row>, l: int)
    ensures FilterLabel(a + b, l) == FilterLabel(a, l) + FilterLabel(b, l)
  {
    if a != [] {
      assert (a + b)[1..] == a[1..] + b;
      FilterAppend(a[1..], b, l);
    } else {
      assert a + b == b;
    }
  }

  /** A list whose rows all carry label `l` passes the filter whole. */
  lemma {:induction false} FilterAllKept(rs: seq<Row>, l: int)
    requires forall k :: 0 <= k < |rs| ==> rs[k].sentimentLabel == l
    ensures FilterLabel(rs, l) == rs
  {
    if rs != [] {
      FilterAllKept(rs[1..], l);
    }
  }

  /** The number of rows with label `l`: `results.filter(...).length`. */
  function Count(rs: seq<Row>, l: int): nat {
    |FilterLabel(rs, l)|
  }

  /** The number of rows whose label is none of 0, 1 and 2. */
  function CountOther(rs: seq<Row>): nat {
    if rs == [] then 0
    else (if rs[0].sentimentLabel in {0, 1, 2} then 0 else 1) + CountOther(rs[1..])
  }

  /** Every row falls under exactly one of positive, neutral, negative and "other". */
  lemma {:induction false} CountsPartition(rs: seq<Row>)
    ensures Count(rs, 2) + Count(rs, 1) + Count(rs, 0) + CountOther(rs) == |rs|
  {
    if rs != [] {
      CountsPartition(rs[1..]);
    }
  }

  lemma {:induction false} CountOtherZero(rs: seq<Row>)
    ensures CountOther(rs) == 0 <==> forall k :: 0 <= k < |rs| ==> rs[k].sentimentLabel in {0, 1, 2}
  {
    if rs != [] {
      CountOtherZero(rs[1..]);
      assert forall k :: 1 <= k < |rs| ==> rs[1..][k - 1] == rs[k];
    }
  }

  /** The three counts add up to the total exactly when every label is 0, 1 or 2; each
      count is at most the total in any case. */
  lemma CountsSumToTotal(rs: seq<Row>)
    ensures Count(rs, 2) + Count(rs, 1) + Count(rs, 0) == |rs| <==>
      forall k :: 0 <= k < |rs| ==> rs[k].sentimentLabel in {0, 1, 2}
    ensures Count(rs, 2) <= |rs| && Count(rs, 1) <= |rs| && Count(rs, 0) <= |rs|
  {
    CountsPartition(rs);
    CountOtherZero(rs);
  }

  /** The comments listed under a tab. "all" lists every row; "positive", "neutral" and
      "negative" list the rows labelled 2, 1 and 0; any other tab value falls through to
      the label-0 filter. */
  function Filtered(rs: seq<Row>, tab: string): (r: seq<Row>)
    ensures tab == "all" ==> r == rs
    ensures tab == "positive" ==> forall x :: x in r <==> x in rs && x.sentimentLabel == 2
    ensures tab == "neutral" ==> forall x :: x in r <==> x in rs && x.sentimentLabel == 1
    ensures tab !in {"all", "positive", "neutral"} ==> forall x :: x in r <==> x in rs && x.sentimentLabel == 0
    ensures tab != "all" ==> |r| <= |rs|
    ensures tab == "positive" ==> r == FilterLabel(rs, 2)
    ensures tab == "neutral" ==> r == FilterLabel(rs, 1)
    ensures tab !in {"all", "positive", "neutral"} ==> r == FilterLabel(rs, 0)
  {
    if tab == "all" then rs
    else if tab == "positive" then FilterLabel(rs, 2)
    else if tab == "neutral" then FilterLabel(rs, 1)
    else FilterLabel(rs, 0)
  }

  /** A tab value other than the four the cards set lists the same comments as the
      negative tab. */
  lemma FilterFallsThrough(rs: seq<Row>, tab: string)
    requires tab !in {"all", "positive", "neutral"}
    ensures Filtered(rs, tab) == Filtered(rs, "negative") == FilterLabel(rs, 0)
  {
  }

  /** A JavaScript number as far as the percentages need one. */
  datatype JsNumber = Finite(n: int) | NaN | Infinity

  lemma {:induction false} MulCancel(a: int, b: int, t: int)
    requires t > 0
    ensures a * t > b * t ==> a > b
    ensures a * t <= b * t ==> a <= b
  {
    if a > b {
      assert a * t - b * t == (a - b) * t;
    } else {
      assert b * t - a * t == (b - a) * t;
    }
  }

  /** `(200 * count + total) / (2 * total)` is the rounded percentage. */
  lemma {:induction false} RoundBounds(count: nat, total: nat)
    requires total > 0
    ensures var q := (200 * count + total) / (2 * total);
      200 * count - total < 2 * total * q <= 200 * count + total
      && (count <= total ==> 0 <= q <= 100)
  {
    var a, b := 200 * count + total, 2 * total;
    var q := a / b;
    assert a == b * q + a % b;
    assert b * q <= a < b * q + b;
    if count <= total {
      MulCancel(q, 101, b);
      MulCancel(0, q + 1, b);
    }
  }

  /** `Math.round((count / total) * 100)`, read over exact rationals: the nearest integer
      to `100 * count / total`, halves rounded up. Division by a zero total is evaluated
      all the same and gives `NaN` (zero count) or `Infinity`. */
  function Percent(count: nat, total: nat): (p: JsNumber)
    ensures total > 0 ==> p.Finite? && 200 * count - total < 2 * total * p.n <= 200 * count + total
    ensures total > 0 && count <= total ==> 0 <= p.n <= 100
    ensures total == 0 ==> (p == NaN <==> count == 0) && (p == Infinity <==> count > 0)
  {
    if total == 0 then (if count == 0 then NaN else Infinity)
    else
      RoundBounds(count, total);
      Finite((200 * count + total) / (2 * total))
  }

  /** When every label is 0, 1 or 2 and there is at least one row, the three
      percentages add up to 99, 100 or 101: rounding each one separately can lose or gain
      up to a point and a half. */
  lemma PercentagesNearlySumTo100(rs: seq<Row>)
    requires |rs| > 0
    requires forall k :: 0 <= k < |rs| ==> rs[k].sentimentLabel in {0, 1, 2}
    ensures 99 <= Percent(Count(rs, 2), |rs|).n + Percent(Count(rs, 1), |rs|).n + Percent(Count(rs, 0), |rs|).n <= 101
  {
    CountsSumToTotal(rs);
    RoundedSum(Count(rs, 2), Count(rs, 1), Count(rs, 0), |rs|);
  }

  /** Three shares of one total, rounded separately, add up to 99, 100 or 101. */
  lemma {:induction false} RoundedSum(c2: nat, c1: nat, c0: nat, t: nat)
    requires t > 0 && c2 + c1 + c0 == t
    ensures 99 <= Percent(c2, t).n + Percent(c1, t).n + Percent(c0, t).n <= 101
  {
    var n2, n1, n0 := Percent(c2, t).n, Percent(c1, t).n, Percent(c0, t).n;
    var s := n2 + n1 + n0;
    assert 2 * t * s == 2 * t * n2 + 2 * t * n1 + 2 * t * n0;
    assert 200 * (c2 + c1 + c0) == 200 * t;
    assert 197 * t < 2 * t * s <= 203 * t;
    assert 2 * t * s == (2 * s) * t;
    MulCancel(2 * s, 197, t);
    MulCancel(2 * s, 203, t);
  }

  /** Three equal thirds round to 33 each: the sum can fall short of 100. */
  lemma PercentSumExampleLow()
    ensures Percent(1, 3) == Finite(33)
    ensures Percent(1, 3).n + Percent(1, 3).n + Percent(1, 3).n == 99
  {
  }

  /** 12.5, 12.5 and 75 round to 13, 13 and 75: the sum can exceed 100. */
  lemma PercentSumExampleHigh()
    ensures Percent(1, 8) == Finite(13) && Percent(6, 8) == Finite(75)
    ensures Percent(1, 8).n + Percent(1, 8).n + Percent(6, 8).n == 101
  {
  }

  /** The number a string of decimal digits denotes, most significant digit first. */
  function DigitsValue(s: string): int
    decreases |s|
  {
    if s == [] then 0 else DigitsValue(s[..|s| - 1]) * 10 + (s[|s| - 1] as int - '0' as int)
  }

  /** The decimal digits of a natural number, as `String(n)` writes them: they denote
      `n`, and there is no leading zero. */
  function DecimalText(n: nat): (s: string)
    ensures |s| > 0 && forall k :: 0 <= k < |s| ==> '0' <= s[k] <= '9'
    ensures DigitsValue(s) == n
    ensures |s| > 1 ==> s[0] != '0'
  {
    var d := ['0' + (n % 10) as char];
    if n < 10 then
      assert d[..0] == [];
      d
    else
      var p := DecimalText(n / 10);
      assert (p + d)[..|p + d| - 1] == p;
      p + d
  }

  /** How `{percentage}` renders a number. */
  function NumberText(p: JsNumber): string {
    match p
    case Finite(n) => if n < 0 then "-" + DecimalText(-n) else DecimalText(n)
    case NaN => "NaN"
    case Infinity => "Infinity"
  }

  /** A summary card: title, count, optional percentage, the tab it selects, and whether
      that tab is the active one. */
  datatype Card = Card(title: string, count: nat, percentage: Option<JsNumber>, tab: string, active: bool)

  /** `{percentage !== undefined && <span>{percentage}%</span>}`: a card shows a percent
      text exactly when it was given a percentage, `NaN` and `Infinity` included. */
  function PercentText(c: Card): (r: Option<string>)
    ensures r.Some? <==> c.percentage.Some?
    ensures r.Some? ==> |r.value| > 1 && r.value[|r.value| - 1] == '%'
  {
    match c.percentage
    case None => None
    case Some(p) => Some(NumberText(p) + "%")
  }

  /** The tab each summary card selects, in card order. */
  const CardTabs: seq<string> := ["all", "positive", "neutral", "negative"]

  /** The four summary cards of `ResultsDisplay`, in order: total, positive, neutral,
      negative. The total card is given no percentage; the three others always are, even
      for an empty result list. */
  function Cards(rs: seq<Row>, activeTab: string): (cs: seq<Card>)
    ensures |cs| == 4
    ensures forall k :: 0 <= k < 4 ==> cs[k].tab == CardTabs[k]
    ensures cs[0].title == "Total Comments"
    ensures cs[1].title == "Positive" && cs[1].count == Count(rs, 2)
    ensures cs[2].title == "Neutral" && cs[2].count == Count(rs, 1)
    ensures cs[3].title == "Negative" && cs[3].count == Count(rs, 0)
    ensures cs[0].percentage.None? && cs[0].count == |rs|
    ensures forall k :: 1 <= k < 4 ==> cs[k].percentage.Some? && cs[k].percentage.value == Percent(cs[k].count, |rs|)
    ensures forall k :: 0 <= k < 4 ==> (cs[k].active <==> cs[k].tab == activeTab)
  {
    var total := |rs|;
    [ Card("Total Comments", total, None, "all", activeTab == "all"),
      Card("Positive", Count(rs, 2), Some(Percent(Count(rs, 2), total)), "positive", activeTab == "positive"),
      Card("Neutral", Count(rs, 1), Some(Percent(Count(rs, 1), total)), "neutral", activeTab == "neutral"),
      Card("Negative", Count(rs, 0), Some(Percent(Count(rs, 0), total)), "negative", activeTab == "negative") ]
  }

  /** Clicking a card lists exactly as many comments as the card counts, and at most one
      card is highlighted. */
  lemma CardCountsMatchLists(rs: seq<Row>, activeTab: string)
    ensures forall k :: 0 <= k < 4 ==> |Filtered(rs, Cards(rs, activeTab)[k].tab)| == Cards(rs, activeTab)[k].count
    ensures forall j, k :: 0 <= j < k < 4 ==> !(Cards(rs, activeTab)[j].active && Cards(rs, activeTab)[k].active)
  {
    var cs := Cards(rs, activeTab);
    forall k | 0 <= k < 4
      ensures |Filtered(rs, cs[k].tab)| == cs[k].count
    {
      if k == 0 {
        assert cs[0].tab == "all";
      } else if k == 1 {
        assert cs[1].tab == "positive" && cs[1].count == Count(rs, 2);
      } else if k == 2 {
        assert cs[2].tab == "neutral" && cs[2].count == Count(rs, 1);
      } else {
        assert cs[3].tab == "negative" && cs[3].count == Count(rs, 0);
        assert Filtered(rs, "negative") == FilterLabel(rs, 0);
      }
    }
  }

  /** With no results, the total card shows no percent and the others show "NaN%". */
  lemma EmptyResultsShowNaN(activeTab: string)
    ensures PercentText(Cards([], activeTab)[0]).None?
    ensures forall k :: 1 <= k < 4 ==> PercentText(Cards([], activeTab)[k]) == Some("NaN%")
  {
    var cs := Cards([], activeTab);
    assert Count([], 0) == Count([], 1) == Count([], 2) == 0;
    assert NumberText(NaN) + "%" == "NaN%";
  }

  lemma PercentTextExample()
    ensures PercentText(Card("Positive", 2, Some(Percent(2, 3)), "positive", false)) == Some("67%")
  {
    assert Percent(2, 3) == Finite(67);
    assert DecimalText(6) == "6";
    assert DecimalText(67) == DecimalText(6) + "7";
    assert NumberText(Finite(67)) == "67";
    var c := Card("Positive", 2, Some(Percent(2, 3)), "positive", false);
    assert PercentText(c) == Some(NumberText(Finite(67)) + "%");
    assert "67" + "%" == "67%";
  }

  /** `sentimentMap[result.sentiment_label].label`; a label outside 0..2 has no entry, and
      the card then fails to render. */
  function LabelName(l: int): (r: Option<string>)
    ensures r.Some? <==> 0 <= l <= 2
  {
    if l == 0 then Some("Negative")
    else if l == 1 then Some("Neutral")
    else if l == 2 then Some("Positive")
    else None
  }

  /** `s.charAt(0).toUpperCase() + s.slice(1)`, for ASCII letters. */
  function Capitalize(s: string): (r: string)
    ensures |r| == |s| && (|s| > 0 ==> r[1..] == s[1..])
    ensures |s| > 0 && 'a' <= s[0] <= 'z' ==> 'A' <= r[0] <= 'Z' && r[0] as int + 32 == s[0] as int
    ensures |s| > 0 && !('a' <= s[0] <= 'z') ==> r[0] == s[0]
  {
    if s == [] then []
    else [if 'a' <= s[0] <= 'z' then (s[0] as int - 32) as char else s[0]] + s[1..]
  }

  /** Under each of the label tabs, every comment card carries the label that the list
      heading names. */
  lemma CardsAgreeWithHeading(rs: seq<Row>, tab: string)
    requires tab in {"positive", "neutral", "negative"}
    ensures forall x :: x in Filtered(rs, tab) ==> LabelName(x.sentimentLabel) == Some(Capitalize(tab))
  {
    var r := Filtered(rs, tab);
    forall x | x in r
      ensures LabelName(x.sentimentLabel) == Some(Capitalize(tab))
    {
      if tab == "positive" {
        assert Capitalize(tab) == "Positive";
      } else if tab == "neutral" {
        assert Capitalize(tab) == "Neutral";
      } else {
        assert Capitalize(tab) == "Negative";
      }
    }
  }
}

=== FILE: wire.dfy ===
/** The values that cross the wire between the Flask backend and the React client. */
module Wire {

  datatype Option<T> = None | Some(value: T)

  /** One element of the `results` list: the comment as fetched, its cleaned text, the
      predicted label and the predictor's probability array, which keeps the batch
      dimension (one row of three probabilities). */
  datatype Row = Row(
    originalComment: string,
    cleanedComment: string,
    sentimentLabel: int,
    sentimentProbabilities: seq<seq<real>>)
}

=== FILE: youtube.dfy ===
/** `backend/routes/youtube.py`: the video-id extraction of `YouTubeAPI`, the error
    wrapping of `YouTubeAPI.fetch_comments`, and the `POST /fetch-comments` route. The
    YouTube Data API call is foreign code and enters as a function parameter, as do the
    preprocessor and the sentiment model that `process_comments` uses. */
module YouTube {
  import opened Wire
  import Pipeline

  /** The characters of `[a-zA-Z0-9_-]`. */
  predicate IsIdChar(c: char) {
    'a' <= c <= 'z' || 'A' <= c <= 'Z' || '0' <= c <= '9' || c == '_' || c == '-'
  }

  /** The length of a video id. */
  const IdLength: nat := 11

  /** `v=([a-zA-Z0-9_-]{11})` matches at index `i` of `url`. */
  predicate IdAt(url: string, i: nat) {
    && i + 2 + IdLength <= |url|
    && url[i] == 'v' && url[i + 1] == '='
    && forall k :: i + 2 <= k < i + 2 + IdLength ==> IsIdChar(url[k])
  }

  /** The `re.search` scan from index `i`: the leftmost match at or after `i`. */
  function FindId(url: string, i: nat): (r: Option<nat>)
    requires i <= |url|
    ensures r.Some? ==> i <= r.value && IdAt(url, r.value)
    ensures r.Some? ==> forall k :: i <= k < r.value ==> !IdAt(url, k)
    ensures r.None? ==> forall k :: i <= k <= |url| ==> !IdAt(url, k)
    decreases |url| - i
  {
    if IdAt(url, i) then Some(i)
    else if i == |url| then None
    else FindId(url, i + 1)
  }

  /** A Python exception: its class and `str(e)`. */
  datatype PyError = ValueError(message: string) | HttpError(message: string) | Error(message: string)

  /** The outcome of a Python call: a value, or a raised exception. */
  datatype Outcome<T> = Ok(value: T) | Raised(error: PyError)

  const InvalidUrlMessage: string := "Invalid YouTube URL. Could not extract video ID."

  /** `extract_video_id`: the eleven characters after the leftmost `v=` that eleven id
      characters follow, or `ValueError` when there is no such `v=`. Characters after the
      eleventh are ignored: the pattern has no end anchor. */
  function ExtractVideoId(url: string): (r: Outcome<string>)
    ensures r.Ok? <==> exists i :: 0 <= i <= |url| && IdAt(url, i)
    ensures r.Ok? ==> |r.value| == IdLength && forall k :: 0 <= k < |r.value| ==> IsIdChar(r.value[k])
    ensures r.Ok? ==> exists i :: (0 <= i <= |url| && IdAt(url, i) && r.value == url[i + 2..i + 2 + IdLength]
      && forall j :: 0 <= j < i ==> !IdAt(url, j))
    ensures r.Raised? ==> r.error == ValueError(InvalidUrlMessage)
  {
    match FindId(url, 0)
    case Some(i) =>
      var id := url[i + 2..i + 2 + IdLength];
      assert forall k :: 0 <= k < IdLength ==> id[k] == url[i + 2 + k];
      Ok(id)
    case None => Raised(ValueError(InvalidUrlMessage))
  }

  /** The `commentThreads().list(...)` request `fetch_comments` builds. */
  datatype ThreadsRequest = ThreadsRequest(part: string, videoId: string, maxResults: nat, textFormat: string)

  /** The parts of the API response `fetch_comments` reads: the `textDisplay` of the
      top-level comment of each item, when the response has an `items` field. */
  datatype ThreadsResponse = ThreadsResponse(items: Option<seq<string>>)

  /** The request for a video id with the default `max_results` of 10. */
  function RequestFor(videoId: string): ThreadsRequest {
    ThreadsRequest("snippet", videoId, 10, "plainText")
  }

  const FetchErrorPrefix: string := "An error occurred while fetching comments: "
  const InvalidUrlPrefix: string := "Invalid YouTube URL: "

  /** The two `except` clauses: `HttpError` and `ValueError` come back as a plain
      `Exception` whose text carries a prefix; every other exception passes through. */
  function Rewrap(e: PyError): (w: PyError)
    ensures w.Error?
    ensures e.Error? ==> w == e
    ensures e.HttpError? ==> w.message == FetchErrorPrefix + e.message
    ensures e.ValueError? ==> w.message == InvalidUrlPrefix + e.message
  {
    match e
    case HttpError(m) => Error(FetchErrorPrefix + m)
    case ValueError(m) => Error(InvalidUrlPrefix + m)
    case Error(_) => e
  }

  /** `fetch_comments`: extract the id, run the request, collect the comment texts (none
      when the response has no `items`). Any exception that leaves it is a plain
      `Exception`, so it never raises a `ValueError` or an `HttpError`. */
  function FetchComments(url: string, api: ThreadsRequest -> Outcome<ThreadsResponse>): (r: Outcome<seq<string>>)
    ensures r.Raised? ==> r.error.Error?
    ensures ExtractVideoId(url).Raised? ==> r == Raised(Error(InvalidUrlPrefix + InvalidUrlMessage))
    ensures ExtractVideoId(url).Ok? && api(RequestFor(ExtractVideoId(url).value)).Raised? ==>
      r == Raised(Rewrap(api(RequestFor(ExtractVideoId(url).value)).error))
  {
    match ExtractVideoId(url)
    case Raised(e) => Raised(Rewrap(e))
    case Ok(videoId) =>
      match api(RequestFor(videoId))
      case Raised(e) => Raised(Rewrap(e))
      case Ok(response) =>
        match response.items
        case None => Ok([])
        case Some(texts) => Ok(texts)
  }

  /** The API sees one request only, the one for the extracted id: two APIs that answer it
      alike give the same outcome, and with an invalid URL the API is not consulted at all. */
  lemma FetchConsultsOnlyTheIdRequest(url: string, api1: ThreadsRequest -> Outcome<ThreadsResponse>,
                                      api2: ThreadsRequest -> Outcome<ThreadsResponse>)
    ensures ExtractVideoId(url).Raised? ==> FetchComments(url, api1) == FetchComments(url, api2)
    ensures ExtractVideoId(url).Ok? && api1(RequestFor(ExtractVideoId(url).value)) == api2(RequestFor(ExtractVideoId(url).value))
      ==> FetchComments(url, api1) == FetchComments(url, api2)
  {
  }

  /** The JSON value found under `youtube_url`. A non-string value makes `re.search` raise
      `TypeError`, whose text names the value's Python type. */
  datatype JsonValue = JString(s: string) | JNonString(pythonType: string)

  /** The JSON body `request.get_json()` yields: a value Python finds falsy (`null`,
      `false`, `0`, `""` or `[]`), or an object. An empty object is falsy as well; it is
      the object with no fields. */
  datatype Body = FalsyJson | JsonObject(fields: map<string, JsonValue>)

  /** What the route answers. */
  datatype ResponseBody = ErrorBody(error: string) | ResultsBody(results: seq<Row>)
  datatype Response = Response(status: int, body: ResponseBody)

  const MissingUrlMessage: string := "Invalid input. Please provide a 'youtube_url' field."

  /** `not data or "youtube_url" not in data`: an empty object is falsy too. */
  predicate InvalidInput(body: Body) {
    body.FalsyJson? || "youtube_url" !in body.fields
  }

  /** What `re.search` raises for a pattern applied to a value that is not a string. */
  function NotStringMessage(pythonType: string): string {
    "expected string or bytes-like object, got '" + pythonType + "'"
  }

  /** The comment texts for the URL value, as the `try` block sees them. Only plain
      exceptions leave it, and a value that is not a string always raises, without the
      API being consulted. */
  function FetchFor(v: JsonValue, api: ThreadsRequest -> Outcome<ThreadsResponse>): (r: Outcome<seq<string>>)
    ensures r.Raised? ==> r.error.Error?
    ensures v.JNonString? ==> r == Raised(Error(NotStringMessage(v.pythonType)))
    ensures v.JString? && ExtractVideoId(v.s).Raised? ==> r == Raised(Error(InvalidUrlPrefix + InvalidUrlMessage))
  {
    match v
    case JString(url) => FetchComments(url, api)
    case JNonString(t) => Raised(Error(NotStringMessage(t)))
  }

  /** The `/fetch-comments` route. A body without `youtube_url` gets 400; otherwise the
      comments are fetched and processed, giving 200 with the results or 500 with the
      text of the exception. No error leaving `fetch_comments` reaches the
      `except ValueError` clause that would give 400, because `fetch_comments` turns every
      `ValueError` into a plain `Exception`. */
  function FetchCommentsRoute(body: Body, api: ThreadsRequest -> Outcome<ThreadsResponse>,
                              preprocess: string -> string, predict: string -> Pipeline.Prediction): (r: Response)
    ensures r.status == 400 <==> InvalidInput(body)
    ensures r.status == 400 ==> r.body == ErrorBody(MissingUrlMessage)
    ensures r.status in {200, 400, 500}
    ensures r.status == 200 <==> r.body.ResultsBody?
    ensures r.status == 200 ==>
      exists comments :: r.body.results == Pipeline.Rows(comments, preprocess, predict)
  {
    if InvalidInput(body) then Response(400, ErrorBody(MissingUrlMessage))
    else
      match FetchFor(body.fields["youtube_url"], api)
      case Ok(comments) => Response(200, ResultsBody(Pipeline.Rows(comments, preprocess, predict)))
      case Raised(e) =>
        if e.ValueError? then Response(400, ErrorBody(e.message))
        else Response(500, ErrorBody(e.message))
  }

  /** A body that fails validation is answered without fetching: the API and the models
      have no influence on the answer. */
  lemma InvalidInputFetchesNothing(body: Body, api1: ThreadsRequest -> Outcome<ThreadsResponse>,
                                   api2: ThreadsRequest -> Outcome<ThreadsResponse>,
                                   pre1: string -> string, pre2: string -> string,
                                   predict1: string -> Pipeline.Prediction, predict2: string -> Pipeline.Prediction)
    requires InvalidInput(body)
    ensures FetchCommentsRoute(body, api1, pre1, predict1) == FetchCommentsRoute(body, api2, pre2, predict2)
  {
  }

  /** An unusable YouTube URL is answered with 500, not 400, and the error text repeats
      the prefix: "Invalid YouTube URL: Invalid YouTube URL. Could not extract video ID." */
  lemma InvalidUrlIsServerError(url: string, api: ThreadsRequest -> Outcome<ThreadsResponse>,
                                preprocess: string -> string, predict: string -> Pipeline.Prediction)
    requires forall i :: 0 <= i <= |url| ==> !IdAt(url, i)
    ensures FetchCommentsRoute(JsonObject(map["youtube_url" := JString(url)]), api, preprocess, predict)
      == Response(500, ErrorBody(InvalidUrlPrefix + InvalidUrlMessage))
  {
  }

  /** A `youtube_url` that is not a string is answered with 500 and the `TypeError` text
      of `re.search`, not with the 400 of the input check. */
  lemma NonStringUrlIsServerError(pythonType: string, api: ThreadsRequest -> Outcome<ThreadsResponse>,
                                  preprocess: string -> string, predict: string -> Pipeline.Prediction)
    ensures FetchCommentsRoute(JsonObject(map["youtube_url" := JNonString(pythonType)]), api, preprocess, predict)
      == Response(500, ErrorBody(NotStringMessage(pythonType)))
  {
  }

  /** A valid URL whose request succeeds is answered with 200 and the processed comments
      of the response's items, in order. */
  lemma SuccessfulFetchIsOk(url: string, api: ThreadsRequest -> Outcome<ThreadsResponse>,
                            texts: seq<string>, preprocess: string -> string, predict: string -> Pipeline.Prediction)
    requires ExtractVideoId(url).Ok?
    requires api(RequestFor(ExtractVideoId(url).value)) == Ok(ThreadsResponse(Some(texts)))
    ensures FetchCommentsRoute(JsonObject(map["youtube_url" := JString(url)]), api, preprocess, predict)
      == Response(200, ResultsBody(Pipeline.Rows(texts, preprocess, predict)))
  {
  }

  /** An API failure is answered with 500 and the wrapped text of the API's exception. */
  lemma ApiFailureIsServerError(url: string, api: ThreadsRequest -> Outcome<ThreadsResponse>,
                                e: PyError, preprocess: string -> string, predict: string -> Pipeline.Prediction)
    requires ExtractVideoId(url).Ok?
    requires api(RequestFor(ExtractVideoId(url).value)) == Raised(e)
    ensures FetchCommentsRoute(JsonObject(map["youtube_url" := JString(url)]), api, preprocess, predict)
      == Response(500, ErrorBody(Rewrap(e).message))
  {
  }

  /** A concrete URL: the id is the eleven characters after `v=`, and what comes after
      them is ignored. */
  lemma ExtractExample()
    ensures ExtractVideoId("?v=dQw4w9WgXcQ&t=42") == Ok("dQw4w9WgXcQ")
  {
    var u := "?v=dQw4w9WgXcQ&t=42";
    assert IdAt(u, 1) && !IdAt(u, 0);
    assert FindId(u, 0) == Some(1);
    assert u[3..14] == "dQw4w9WgXcQ";
  }

  /** The first `v=` is skipped when fewer than eleven id characters follow it. */
  lemma ExtractSkipsShortExample()
    ensures ExtractVideoId("v=a&v=dQw4w9WgXcQxy") == Ok("dQw4w9WgXcQ")
  {
    var u := "v=a&v=dQw4w9WgXcQxy";
    assert IdAt(u, 4) && !IdAt(u, 0) && !IdAt(u, 1) && !IdAt(u, 2) && !IdAt(u, 3);
    assert FindId(u, 3) == Some(4);
    assert FindId(u, 0) == Some(4);
    assert u[6..17] == "dQw4w9WgXcQ";
  }
}
